=== FILE: README.md ===
# rails-settings-cache-rails-admin, modelled in Dafny

The gem adds a "Settings" page to RailsAdmin for the settings that
rails-settings-cached stores. The model covers the three pieces of logic
behind that page.

- **Building the catalog** (`build_settings_data`). The `Setting` class's
  defaults arrive either as a Hash of `key => default` or as an Array of
  heterogeneous field entries. They become setting descriptors (key, default,
  current value, label, field type, description). The descriptors are grouped
  by a category derived from the key, in insertion order.
- **Saving the form** (`update_settings`). Each submitted `key => value` is
  converted back to a typed value (`convert_value`) according to the kind of
  the setting's default, then written to the store.
- **Rendering a field** (`render_setting_field`, `render_array_field`,
  `render_json_field`, `badge_color_for_type`). Each field type gets one
  control and one badge colour.

Modules, one per concern:

| file | module | what it holds |
|---|---|---|
| wrappers.dfy | `Wrappers` | `Option`, `Result` |
| strings.dfy | `RubyStrings` | the String methods the code calls: `strip`, `split`, `humanize`, `to_i`, `Integer#to_s` |
| values.dfy | `RubyValues` | Ruby values as a tagged union; truthiness, `blank?`, `Hash#[]`, `to_s`, `Array#join` |
| classifier.dfy | `FieldTypes` | `determine_field_type` and the e-mail pattern |
| naming.dfy | `Naming` | `extract_category`, `extract_description` |
| converter.dfy | `Converter` | `convert_value` |
| catalog.dfy | `Catalog` | `build_settings_data`: descriptors and grouping |
| update.dfy | `Update` | `update_settings` against a store |
| render.dfy | `FormRenderer` | `render_setting_field` and its two private helpers |
| badge.dfy | `Badge` | `badge_color_for_type` |
| roundtrip.dfy | `RoundTrips` | what the form shows, submitted back unchanged, against what it converts to |

Several things are modelled as data or parameters:

- Exceptions the Ruby code lets escape become the `Failure` of a `Result`.
  Examples are a `NoMethodError` from `to_i` on a hash, a `TypeError` from
  `JSON.parse` on an array, and a Hash-shaped schema whose reader raises.
  The code rescues three exceptions, and the model does the same:
  - in `convert_value`, `JSON::ParserError` yields the raw value;
  - in the Array branch of `build_settings_data`, a raising reader gives a
    `nil` default for a named entry (settings_action.rb:98);
  - in the same branch, a raising reader gives the default as the current
    value (settings_action.rb:117).
- Library routines whose internals are out of scope are fields of a
  `Runtime` record. These are float parsing and printing, `inspect`,
  `JSON.parse` and `to_json`.
- The store is a map from setting name to value. Its keys are the settings
  the `Setting` class declares.
- The setting reader is a function that gives `None` when `public_send`
  raises.
- What the `Setting` class answers to `get_defaults`, `defaults` and
  `_defaults` is a record (`Converter.DefaultsSource`). `convert_value` takes
  the first of the three it responds to, else `{}`, and then indexes it with
  `[]`.

Where the gem's own comments and description disagree with its code, the
model follows the code:

- `extract_category("api_key")` is `"Api"`, not `"API"`. `humanize` does not
  upcase acronyms. The comment at settings_action.rb:160 says otherwise.
- A boolean field's check box and hidden field share one name. If both
  arrive as the array `["0", "1"]`, that array is not blank and is not the
  string `"1"`, so it converts to `false` (`Converter.CheckboxPairIsFalse`).
- Blank input converts to `nil` whatever the setting's type: `""` and
  `"   "` for an integer setting give `nil`, not `0`.
- For an array setting, `split(',')` drops trailing empty pieces but keeps
  inner ones; there is no further filtering.
- A `false` default under the symbol key is skipped by `||`. The string-keyed
  default is used instead, and without one the setting has no typed original.
  A submitted `"1"` is then stored as the string `"1"`.
- An update stops at the first exception. The writes made before it stay.
- A key such as `"_a"` has two segments, the first of them empty, so its
  category is `""`.

## Model

| member | source | states |
|---|---|---|
| FieldTypes.DetermineFieldType | lib/rails_admin_settings_ui/settings_action.rb:169-195 | The value classified is the current value, or the default when that is `nil` or `false`. Its type is boolean, integer, float, array or json exactly when the value has that kind. Otherwise the value's text decides: `text` when longer than 100 characters or multi-line, else `email` when it matches the e-mail pattern, else `url` when it starts with `http://` or `https://`, else `string`. Each type holds in both directions. |
| FieldTypes.MatchesEmail | lib/rails_admin_settings_ui/settings_action.rb:187 | Splitting at the first `@` decides the anchored e-mail regular expression exactly: some `@` splits the text into a `[\w+\-.]+` local part and a domain. |
| FieldTypes.MatchesDomain | lib/rails_admin_settings_ui/settings_action.rb:187 | Splitting at the last dot decides the domain part of the regular expression exactly: dot-separated `[a-z\d\-]+` labels, a dot, and an alphabetic top label. |
| FieldTypes.EmailSplitsAtFirstAt | lib/rails_admin_settings_ui/settings_action.rb:187 | The local part cannot hold an `@`, so the text matches iff the split at its first `@` does. |
| FieldTypes.DomainSplitsAtLastDot | lib/rails_admin_settings_ui/settings_action.rb:187 | The top label cannot hold a dot, so a domain matches iff the split at its last dot does. |
| FieldTypes.CurrentWinsUnlessFalsy | lib/rails_admin_settings_ui/settings_action.rb:170 | A truthy current value alone decides the type. A `nil` or `false` current value leaves the decision to the default alone. |
| FieldTypes.FalseCurrentUsesStringDefault | lib/rails_admin_settings_ui/settings_action.rb:170-174 | A boolean setting whose current value is `false` and whose default is a string is classified by the string, never as boolean. |
| FieldTypes.LongTextBeatsEmailAndUrl | lib/rails_admin_settings_ui/settings_action.rb:185-186 | Long or multi-line text is `text` even when it is shaped like an address or a URL. |
| FieldTypes.StringsGetTextTypes | lib/rails_admin_settings_ui/settings_action.rb:183-193 | Every string, the empty one included, is one of the four text types. |
| FieldTypes.ClassifiesSampleEmail | lib/rails_admin_settings_ui/settings_action.rb:187-188 | `"user@example.com"` is classified `email`. |
| FieldTypes.ClassifiesSampleUrl | lib/rails_admin_settings_ui/settings_action.rb:189-190 | `"https://example.org"` is classified `url`. |
| Naming.ExtractCategory | lib/rails_admin_settings_ui/settings_action.rb:159-167 | A key with fewer than two underscore-separated segments is in `"General"`. Otherwise the category is the text before the first underscore, without leading whitespace, with its first letter upcased and the rest downcased. |
| Naming.ExtractCategoryIsSplit | lib/rails_admin_settings_ui/settings_action.rb:161-166 | The category agrees with the source's formulation: `split('_')`, then `humanize` the first part when there is more than one part. |
| Naming.SplitSegments | lib/rails_admin_settings_ui/settings_action.rb:161-162 | `split('_')` yields more than one part iff some character after the first underscore is not an underscore. Its first part is then the text before the first underscore. |
| Naming.HumanizeSegment | lib/rails_admin_settings_ui/settings_action.rb:163 | For a segment without underscores, `humanize` capitalises what is left after its leading whitespace goes. |
| Naming.CategoryIsFirstSegment | lib/rails_admin_settings_ui/settings_action.rb:162-163 | A multi-segment key whose first segment starts with a letter is in that segment's capitalised category. |
| Naming.ApiKeyCategory | lib/rails_admin_settings_ui/settings_action.rb:160-163 | `api_key` is in category `"Api"`. |
| Naming.MailFromCategory | lib/rails_admin_settings_ui/settings_action.rb:160-163 | `mail_from` is in category `"Mail"`. |
| Naming.SampleGeneralCategories | lib/rails_admin_settings_ui/settings_action.rb:162-166 | `timeout`, and `foo_` whose underscores are all trailing, are in `"General"`. |
| Naming.ExtractDescription | lib/rails_admin_settings_ui/settings_action.rb:197-210 | The hint is the mail one iff the key contains "mail". It is the API one iff the key contains "api" but not "mail", and the caching one iff it contains "cache" and neither of the others. Otherwise there is none. |
| RubyStrings.HumanizeShape | lib/rails_admin_settings_ui/settings_action.rb:76 | A label made by `humanize` has no underscore, does not start with whitespace, and has no ASCII capital letter after its first character. |
| RubyStrings.IntRoundTrip | lib/rails_admin_settings_ui/settings_action.rb:232 | `String#to_i` reads back what `Integer#to_s` printed: `n.to_s.to_i == n` for every integer. |
| RubyStrings.SplitOfJoin | lib/rails_admin_settings_ui/settings_action.rb:236 | `split(c)` of pieces joined by `c` gives the pieces back when none holds `c` and the last is not empty. |
| RubyStrings.Split | lib/rails_admin_settings_ui/settings_action.rb:161 | No piece of `split(c)` holds `c`, and the last piece is never empty. |
| RubyStrings.SplitDropsTrailingEmpty | lib/rails_admin_settings_ui/settings_action.rb:161 | `split(c)` is the list of fields between occurrences of `c` with only trailing empty fields dropped: it is a prefix of the fields, and every field after it is empty. |
| RubyStrings.StripOfSpaced | lib/rails_admin_settings_ui/settings_action.rb:236 | `strip` removes the space `join(', ')` put in front of a stripped piece. |
| Converter.ConverterDefaults | lib/rails_admin_settings_ui/settings_action.rb:216-224 | `get_defaults` wins when the class responds to it. Otherwise `defaults` is used when the class responds to it, otherwise `_defaults`. The empty Hash is used when the class responds to none of the three. |
| Converter.ConvertSubmitted | lib/rails_admin_settings_ui/settings_action.rb:212-244 | Blank input is `nil` before the defaults are consulted. Otherwise the result depends on the defaults' shape. Nil, booleans and floats raise `NoMethodError`. Arrays, strings, symbols and integers raise `TypeError`. Both raising cases hold in both directions. For a Hash, the conversion is `Converter.ConvertValue` against its entries. |
| Converter.DefinedFieldsOnlyIsUntyped | lib/rails_admin_settings_ui/settings_action.rb:216-226 | A class exposing its defaults only through `defined_fields` or `_defined_fields`, whatever they hold, gets every submitted value stored as it comes, and blank input as `nil`. |
| Converter.ArrayDefaultsRaise | lib/rails_admin_settings_ui/settings_action.rb:226 | Array-shaped defaults make every non-blank submission raise `TypeError`. |
| Converter.OriginalValue | lib/rails_admin_settings_ui/settings_action.rb:226 | The symbol-keyed default is used unless it is `nil` or `false`; then the string-keyed one is used. With no entry under either key the original is `nil`. A non-`nil` original is the value of an entry under the Symbol or String key. |
| Converter.ConvertValue | lib/rails_admin_settings_ui/settings_action.rb:212-244 | Blank input is `nil`. A string never raises. A boolean setting gives `true` iff the value is `"1"` or `"true"`, and `false` otherwise. An array or hash passes through unchanged for its own kind. Text for an array setting becomes its stripped, comma-free pieces. For a hash setting, text that parses as JSON becomes the parsed value, and other text stays raw. An untyped default stores the value as given. Non-blank input raises exactly when `to_i` or `to_f` raises for an integer or float setting, or when a value that is neither a String nor of the setting's own kind reaches `split` for an array setting or `JSON.parse` for a hash setting. |
| Converter.ToInteger | lib/rails_admin_settings_ui/settings_action.rb:231-232 | `to_i` gives an integer. It raises exactly for booleans, symbols, arrays, hashes, and floats that `Float#to_i` rejects. A string's value is `String#to_i` of it, and an integer is kept. |
| Converter.ConvertAs | lib/rails_admin_settings_ui/settings_action.rb:228-241 | Only the `to_i`, `to_f`, `split` and `JSON.parse` arms can raise: a boolean or untyped setting never does. The conversion raises exactly when `to_i` or `to_f` raises, or when a value that is neither a String nor of the setting's own kind reaches `split` or `JSON.parse`. An array or hash passes through unchanged for its own kind. |
| Converter.FloatUsesToFloat | lib/rails_admin_settings_ui/settings_action.rb:226-234 | A value that is not blank, for a float setting, is converted by `to_f`. |
| Converter.ToFloat | lib/rails_admin_settings_ui/settings_action.rb:233-234 | `to_f` gives a float. It raises exactly for values other than a string, integer, float or `nil`, and keeps a float. |
| Converter.SplitAndStrip | lib/rails_admin_settings_ui/settings_action.rb:236 | Piece i is field i of `split(',')`, stripped. So every piece is stripped and free of commas. |
| Converter.FalseDefaultIsNotBoolean | lib/rails_admin_settings_ui/settings_action.rb:226-240 | A `false` symbol-keyed default with no string-keyed one gives the setting no typed original. Submitted values are stored as they come, and blank input as `nil`. |
| Converter.CheckboxPairIsFalse | lib/rails_admin_settings_ui/settings_action.rb:229-230 | The pair `["0", "1"]` submitted for a boolean setting converts to `false`. |
| Converter.BlankIntegerIsNil | lib/rails_admin_settings_ui/settings_action.rb:213 | Space-only text for an integer setting is `nil`, not 0. |
| Converter.IntegerUsesToInteger | lib/rails_admin_settings_ui/settings_action.rb:226-232 | A value that is not blank, for an integer setting, is converted by `to_i`. |
| Converter.IntegerTextConverts | lib/rails_admin_settings_ui/settings_action.rb:231-232 | For an integer setting, the decimal text of any integer converts back to that integer. |
| Catalog.HashDescriptor | lib/rails_admin_settings_ui/settings_action.rb:62-81 | A pair gives a descriptor iff its key is a String or Symbol that the store can read. The descriptor keeps the key and the default, and holds the value read. |
| Catalog.HashDescriptors | lib/rails_admin_settings_ui/settings_action.rb:60-82 | Hash shape: the build fails iff some key cannot be read. Otherwise there is one descriptor per pair, in order, each describing its pair. |
| Catalog.ArrayDescriptor | lib/rails_admin_settings_ui/settings_action.rb:95-136 | An Array entry is skipped iff its extracted key is `nil` or `false`. It raises iff that key has no `to_sym`. Otherwise the key becomes a Symbol, the default is kept, and the current value is the store's, with the default when the read raises. |
| Catalog.ArrayDescriptors | lib/rails_admin_settings_ui/settings_action.rb:88-137 | Array shape: the build fails iff some entry's `to_sym` raises. Otherwise at most one descriptor per entry is made, and every key is a Symbol. |
| Catalog.KeptEntryExtendsDescriptors | lib/rails_admin_settings_ui/settings_action.rb:115-133 | An entry that yields a key adds its descriptor after those of the entries before it. |
| Catalog.NamedEntryKey | lib/rails_admin_settings_ui/settings_action.rb:95-98 | A String or Symbol entry names the setting as a Symbol. Its default is the stored value, or `nil` when the read raises. |
| Catalog.ObjectEntryKeyPriority | lib/rails_admin_settings_ui/settings_action.rb:103-111 | An object with `key` and `default` is described by those, whatever its `name`. One with only `name` is described by its name and by its `default` when it answers one, else by a `nil` default. One with neither yields no key. |
| Catalog.SkippedEntryLeavesCatalog | lib/rails_admin_settings_ui/settings_action.rb:115-136 | An entry that yields no key changes nothing: the descriptors are those of the other entries. |
| Catalog.HashEntryKeyPriority | lib/rails_admin_settings_ui/settings_action.rb:101-102 | In a Hash entry `:name` beats `'name'`, which beats the first key. Likewise `:default` beats `'default'`, which beats the first value. A `nil` or `false` value is passed over in both chains. |
| Catalog.InsertLookup | lib/rails_admin_settings_ui/settings_action.rb:70-81 | Adding a descriptor under category c appends it to c's list and leaves every other list as it was. |
| Catalog.InsertCategories | lib/rails_admin_settings_ui/settings_action.rb:70 | Filing a descriptor under category c adds c at the end of the category order iff c is new. |
| Catalog.GroupLookup | lib/rails_admin_settings_ui/settings_action.rb:67-74 | Each category's list is exactly the descriptors of that category, in schema order. |
| Catalog.GroupCategories | lib/rails_admin_settings_ui/settings_action.rb:69-70 | The categories are those of the descriptors, each once, in order of first appearance. |
| Catalog.GroupKeepsAll | lib/rails_admin_settings_ui/settings_action.rb:68-82 | Every descriptor lands in the catalog exactly once (equal as multisets). |
| Catalog.BuildSettingsData | lib/rails_admin_settings_ui/settings_action.rb:16-147 | `{}` without a `Setting` class or with defaults of neither shape. It fails iff the descriptors do. On success the categories are distinct and in order of first appearance, every descriptor appears once, and each category holds exactly its descriptors in order. |
| Update.Apply | lib/rails_admin_settings_ui/settings_action.rb:152-156 | No setting is added or removed. The run completes iff every pair names a declared setting and converts. |
| Update.ApplyKeepsUnnamed | lib/rails_admin_settings_ui/settings_action.rb:152-156 | A setting no pair names keeps its value, even when the run stops early. |
| Update.ApplyLastWriteWins | lib/rails_admin_settings_ui/settings_action.rb:152-156 | After a complete run, each named setting holds the converted value of the last pair naming it. |
| Update.UpdateSettings | lib/rails_admin_settings_ui/settings_action.rb:149-157 | Nothing changes without a `Setting` class or a `settings` parameter, and the set of settings never changes. |
| Update.StringSubmissionsSucceed | lib/rails_admin_settings_ui/settings_action.rb:149-157 | With Hash-shaped defaults, a form submission of strings for declared settings never stops early. Each setting ends up holding its last submitted value, converted. |
| Update.ArrayDefaultsStopUpdate | lib/rails_admin_settings_ui/settings_action.rb:152-155 | With Array-shaped defaults, an update whose first value is not blank stops at once with `TypeError`, and the store is unchanged. |
| Update.UnrelatedKeysUnchanged | lib/rails_admin_settings_ui/settings_action.rb:149-157 | A setting the submission does not name keeps its value. |
| FormRenderer.RenderSettingField | app/helpers/rails_admin_settings_ui_helper.rb:2-56 | Each control has the name `settings[key]` and the id `setting_key`. The control kind is fixed by the type in both directions: a checkbox `"1"`/`"0"`/"Enabled" for booleans, checked iff the value is truthy; a number field with step 1 for integers and 0.01 for floats; a 4-row text area for text, a 6-row one for JSON; e-mail and URL inputs; a text field for arrays and strings. Placeholders, help texts and prefill are set per type. |
| FormRenderer.PrefillsOfText | app/helpers/rails_admin_settings_ui_helper.rb:60-74 | Both helpers show a string as it is. The array field shows a non-array by `to_s`, and the JSON field shows a non-string by its JSON encoding. |
| FormRenderer.NamesAreInjective | app/helpers/rails_admin_settings_ui_helper.rb:3-4 | Distinct keys get distinct parameter names and distinct element ids. |
| RubyValues.JoinOfStrings | app/helpers/rails_admin_settings_ui_helper.rb:61 | `Array#join` of an array of strings is their concatenation with the separator between them. |
| RoundTrips.ArrayFieldShowsJoin | app/helpers/rails_admin_settings_ui_helper.rb:60-61 | An array of strings is shown as its elements joined by `", "`. |
| RoundTrips.ArrayRoundTrip | lib/rails_admin_settings_ui/settings_action.rb:235-236 | An array field submitted back unchanged converts to the same array, provided no string is blank, holds a comma, or has surrounding whitespace. |
| RoundTrips.SplitAndStripOfJoin | lib/rails_admin_settings_ui/settings_action.rb:236 | `split(',').map(&:strip)` undoes `join(', ')` under the same conditions. |
| RoundTrips.EmptyArrayBecomesNil | lib/rails_admin_settings_ui/settings_action.rb:213 | An empty array is shown as `""`, which converts to `nil`, not `[]`. |
| RoundTrips.CheckboxValuesRoundTrip | app/helpers/rails_admin_settings_ui_helper.rb:10-13 | The checkbox's value converts to `true` and the hidden field's value to `false`. |
| RoundTrips.IntegerRoundTrip | lib/rails_admin_settings_ui/settings_action.rb:231-232 | An integer field shows the integer, and its text converts back to it. |
| RoundTrips.JsonRoundTrip | lib/rails_admin_settings_ui/settings_action.rb:237-238 | A hash shown as JSON converts back to the same hash, for any encoder whose non-blank output the parser reads back. |
| RoundTrips.JsonTextRoundTrip | lib/rails_admin_settings_ui/settings_action.rb:237-243 | A non-blank string that is not JSON, in a JSON field, is shown as it is and saved back as the same string. The catalog never gives a string current value the `json` type, so the display half applies when the field is rendered as `json` directly. |
| Badge.BadgeColorForType | lib/rails_admin_settings_ui/helper.rb:3-18 | Every type gets one of the five Bootstrap colours. |
| Badge.BadgeMatchesControl | lib/rails_admin_settings_ui/helper.rb:3-18 | The colour tells the control kind apart, in both directions: success for checkboxes, info for number fields, warning for text areas, primary for e-mail and URL inputs, dark for one-line text fields. |

## Left out

- The RailsAdmin action registration, the controller's request flow, the
  flash message, the redirect and every `Rails.logger` call are glue with no
  logic to model.
- `build_settings_data`'s probing of the `Setting` class for `get_defaults`,
  `defaults`, `_defaults`, `defined_fields` or `_defined_fields` is not
  modelled. The schema it finds is an input (`Catalog.SettingClass`): field
  objects are not Ruby values in this model, so no single record feeds both
  the catalog and `convert_value`. `convert_value`'s own three-way probing is
  modelled (`Converter.ConverterDefaults`).
- HTML generation is not modelled: controls are described by their
  parameters, not by the markup the tag helpers emit. The CSS class names are
  left out, and the label text of `render_setting_field` is modelled only as
  the checkbox caption.
- Floating point is out of scope. `String#to_f`, `Integer#to_f`, `Float#to_i`
  and `Float#to_s` are runtime parameters, and a float is its 64-bit pattern.
- JSON encoding and decoding, and `inspect`, are runtime parameters; JSON's
  grammar is not modelled.
- `humanize` is the ActiveSupport 7 `Inflector#humanize`: underscores to
  spaces, then `lstrip`, then a trailing " id" dropped when the word ends in
  "_id", then ASCII letters downcased and the first word character upcased.
  Older ActiveSupport releases strip only leading underscores, which gives a
  different category for a key such as `" api_key"`. No inflection rules,
  acronyms or human rules are configured, and letter case is folded for ASCII
  only.
- Rack's parsing of the form body is not modelled. `update_settings` receives
  the parameters as an ordered list of pairs. Which of the checkbox's two
  same-named fields wins is decided by Rack, so only the values each field
  carries are stated (`RoundTrips.CheckboxValuesRoundTrip`).
- Writing a setting through rails-settings-cached (its own type casting, cache
  and database) is modelled as a map update.
- A writer `key=` the `Setting` class does not declare is modelled as a key
  outside the store, which stops the update with `UnknownSetting`. In Ruby,
  `public_send("#{key}=")` reaches any public class-level writer, not only
  declared settings (ActiveRecord's `table_name=` or `primary_key=`, for
  example). For such a key Ruby performs the write and carries on. So
  `Update.Apply`'s "the run completes iff every pair names a declared setting
  and converts" holds of the model only. Writers that are not settings are
  not modelled.
- `FieldTypes.EmailPattern`: the `/i` flag is read as ASCII case folding. The
  Ruby regex engine folds case by Unicode rules, so `[a-z]` and `\w` may also
  match characters such as U+212A KELVIN SIGN and U+017F LONG S. A text such
  as `"a@b.\u{212A}"` may then be `email` in Ruby and `string` in the model.
  The model does not state the Unicode folding.
- `Catalog.ArrayDescriptors`: the contract states only the failure condition,
  the count bound and the Symbol keys. That the descriptors are exactly those
  of the entries that yield a key, in order, is stated by two lemmas together:
  `Catalog.SkippedEntryLeavesCatalog` for entries without a key and
  `Catalog.KeptEntryExtendsDescriptors` for entries with one.
- `Converter.ConvertValue`: for the integer and float branches, the contract
  states when they raise but not the value they give. Their values are stated by
  `Converter.IntegerUsesToInteger` and `Converter.FloatUsesToFloat`, together
  with the contracts of `Converter.ToInteger` and `Converter.ToFloat`.
- `Update.UpdateSettings`: the contract states only the no-op cases and the
  unchanged key set. The per-setting outcomes are stated by
  `Update.StringSubmissionsSucceed` and `Update.UnrelatedKeysUnchanged`.

=== FILE: badge.dfy ===
/** The badge colour the settings page shows beside each field type
    (`badge_color_for_type`), and how it lines up with the control the
    renderer picks for that type. */
module Badge {
  import opened RubyValues
  import opened FieldTypes
  import opened FormRenderer

  /** `badge_color_for_type`: one Bootstrap colour per group of types; every
      type gets one. */
  function BadgeColorForType(t: FieldType): (color: string)
    ensures color in {"success", "info", "warning", "primary", "dark"}
  {
    match t
    case BooleanField => "success"
    case IntegerField => "info"
    case FloatField => "info"
    case TextField => "warning"
    case JsonField => "warning"
    case EmailField => "primary"
    case UrlField => "primary"
    case ArrayField => "dark"
    case StringField => "dark"
  }

  /** The colour tells the kind of control apart: checkboxes are "success",
      number fields "info", text areas "warning", e-mail and URL fields
      "primary", and one-line text fields "dark". */
  lemma BadgeMatchesControl(t: FieldType, key: string, current: Value, rt: Runtime)
    ensures var w := RenderSettingField(key, t, current, rt).widget;
      && (BadgeColorForType(t) == "success" <==> w.CheckBox?)
      && (BadgeColorForType(t) == "info" <==> w.NumberInput?)
      && (BadgeColorForType(t) == "warning" <==> w.TextArea?)
      && (BadgeColorForType(t) == "primary" <==> w.EmailInput? || w.UrlInput?)
      && (BadgeColorForType(t) == "dark" <==> w.TextInput?)
  {
  }
}

=== FILE: catalog.dfy ===
/** The catalog builder of the settings action (`build_settings_data`): the
    schema's defaults, in enumeration order, become setting descriptors that
    are grouped into an insertion-ordered list of (category, descriptors)
    pairs. The store's reads are a parameter; the defaults arrive either as a
    Hash of key => default or as an Array of heterogeneous field entries. */
module Catalog {
  import opened Wrappers
  import opened RubyStrings
  import opened RubyValues
  import opened FieldTypes
  import opened Naming

  /** One setting as the form shows it (the Ruby hash built per key). Its
      `label`, `field_type` and `description` entries are always computed from
      the key and the two values, so they are derived here rather than stored. */
  datatype Descriptor = Descriptor(key: Value, defaultValue: Value, currentValue: Value) {

    /** `key.to_s.humanize`. */
    function Label(): string {
      Humanize(KeyText(key))
    }

    /** `determine_field_type(default_value, current_value)`. */
    function Type(): FieldType {
      DetermineFieldType(defaultValue, currentValue)
    }

    /** `extract_description(key, settings_class)`. */
    function Description(): Option<string> {
      ExtractDescription(KeyText(key))
    }
  }

  /** Category name => descriptors, in the order categories first appear. */
  type Catalog = seq<(string, seq<Descriptor>)>

  /** An element of an Array-shaped schema: a plain Ruby value, or a field
      object described by what its `key`, `default` and `name` methods return
      (None when it does not respond to the method). */
  datatype Entry =
    | Literal(v: Value)
    | FieldObject(keyMethod: Option<Value>, defaultMethod: Option<Value>, nameMethod: Option<Value>)

  /** The shapes `defaults` can take. */
  datatype Schema =
    | HashSchema(entries: seq<(Value, Value)>)
    | ArraySchema(items: seq<Entry>)
    | OtherSchema

  /** The `Setting` class: its defaults and its reader, which gives None when
      `public_send(name)` raises. */
  datatype SettingClass = SettingClass(defaults: Schema, read: string -> Option<Value>)

  /** The exceptions that escape `build_settings_data`. */
  datatype BuildError =
    | BadKey(key: Value)       // TypeError: public_send of something not a Symbol or String
    | ReadFailed(name: string) // the store's reader raised
    | NoSymbol(key: Value)     // NoMethodError: to_sym of an extracted key

  // ---------------------------------------------------------------------------
  // Descriptors
  // ---------------------------------------------------------------------------

  /** `key.to_s` of a setting key, which is always a String or a Symbol. */
  function KeyText(key: Value): string {
    KeyName(key).GetOr("")
  }

  /** `extract_category(key)`. */
  function CategoryOf(d: Descriptor): string {
    ExtractCategory(KeyText(d.key))
  }

  /** `public_send(key)` succeeds for this key. */
  predicate Readable(key: Value, read: string -> Option<Value>) {
    KeyName(key).Some? && read(KeyName(key).value).Some?
  }

  /** `d` is the descriptor of the pair `key => default`: it keeps both and
      holds the value the store reads under the key. */
  predicate DescribesPair(d: Descriptor, pair: (Value, Value), read: string -> Option<Value>) {
    && d.key == pair.0
    && d.defaultValue == pair.1
    && read(KeyText(pair.0)) == Some(d.currentValue)
  }

  /** The Hash-shape descriptor of one `key => default` pair. */
  function HashDescriptor(key: Value, defaultValue: Value, read: string -> Option<Value>)
    : (r: Result<Descriptor, BuildError>)
    ensures r.Success? <==> Readable(key, read)
    ensures r.Success? ==> DescribesPair(r.value, (key, defaultValue), read)
  {
    match KeyName(key)
    case None => Failure(BadKey(key))
    case Some(name) =>
      match read(name)
      case None => Failure(ReadFailed(name))
      case Some(current) => Success(Descriptor(key, defaultValue, current))
  }

  /** Hash shape: one descriptor per pair, in enumeration order; the first
      key that cannot be read aborts the build. */
  function HashDescriptors(entries: seq<(Value, Value)>, read: string -> Option<Value>)
    : (r: Result<seq<Descriptor>, BuildError>)
    ensures r.Failure? <==> exists i | 0 <= i < |entries| :: !Readable(entries[i].0, read)
    ensures r.Success? ==> |r.value| == |entries|
    ensures r.Success? ==> forall i | 0 <= i < |entries| :: DescribesPair(r.value[i], entries[i], read)
    decreases |entries|
  {
    if |entries| == 0 then Success([])
    else
      var head := HashDescriptor(entries[0].0, entries[0].1, read);
      var tail := HashDescriptors(entries[1..], read);
      if head.Failure? then Failure(head.error)
      else if tail.Failure? then
        assert exists i | 0 <= i < |entries| :: !Readable(entries[i].0, read) by {
          var k :| 0 <= k < |entries[1..]| && !Readable(entries[1..][k].0, read);
          assert entries[k + 1] == entries[1..][k];
        }
        Failure(tail.error)
      else
        var r := [head.value] + tail.value;
        assert forall i | 0 <= i < |entries| ::
          Readable(entries[i].0, read) && DescribesPair(r[i], entries[i], read)
        by {
          forall i | 0 <= i < |entries|
            ensures Readable(entries[i].0, read) && DescribesPair(r[i], entries[i], read)
          {
            if i > 0 {
              assert entries[i] == entries[1..][i - 1] && r[i] == tail.value[i - 1];
            }
          }
        }
        Success(r)
  }

  /** The `(key, default_value)` an Array entry yields, by priority: a Symbol
      or String names the setting and its default is read from the store; a
      Hash gives `:name || 'name' || keys.first` and `:default || 'default' ||
      values.first`; an object with `key` and `default` gives those; an object
      with `name` gives it and its `default`, if any. Anything else gives nil,
      and is skipped. */
  function ExtractKey(e: Entry, read: string -> Option<Value>): (Value, Value) {
    match e
    case Literal(v) =>
      if v.Str? || v.Sym? then
        var name := KeyText(v);
        (Sym(name), read(name).GetOr(Nil))
      else if v.Hash? then
        (Or(Or(HashGet(v.entries, Sym("name")), HashGet(v.entries, Str("name"))), FirstKey(v.entries)),
         Or(Or(HashGet(v.entries, Sym("default")), HashGet(v.entries, Str("default"))), FirstValue(v.entries)))
      else (Nil, Nil)
    case FieldObject(k, dflt, n) =>
      if k.Some? && dflt.Some? then (k.value, dflt.value)
      else if n.Some? then (n.value, dflt.GetOr(Nil))
      else (Nil, Nil)
  }

  /** Array shape, one entry: skipped (None) when the extracted key is nil or
      false; otherwise the key becomes a Symbol and the current value is read,
      the default standing in when the read raises. */
  function ArrayDescriptor(e: Entry, read: string -> Option<Value>)
    : (r: Result<Option<Descriptor>, BuildError>)
    ensures r == Success(None) <==> !Truthy(ExtractKey(e, read).0)
    ensures r.Failure? <==> Truthy(ExtractKey(e, read).0) && KeyName(ExtractKey(e, read).0).None?
    ensures r.Success? && r.value.Some? ==>
      var name := KeyName(ExtractKey(e, read).0).value;
      && r.value.value.key == Sym(name)
      && r.value.value.defaultValue == ExtractKey(e, read).1
      && r.value.value.currentValue == read(name).GetOr(ExtractKey(e, read).1)
  {
    var (key, defaultValue) := ExtractKey(e, read);
    if !Truthy(key) then Success(None)
    else
      match KeyName(key)
      case None => Failure(NoSymbol(key))
      case Some(name) => Success(Some(Descriptor(Sym(name), defaultValue, read(name).GetOr(defaultValue))))
  }

  /** Array shape: the descriptors of the entries that yield a key, in order;
      every key is a Symbol. */
  function ArrayDescriptors(items: seq<Entry>, read: string -> Option<Value>)
    : (r: Result<seq<Descriptor>, BuildError>)
    ensures r.Failure? <==> exists i | 0 <= i < |items| :: ArrayDescriptor(items[i], read).Failure?
    ensures r.Success? ==> |r.value| <= |items|
    ensures r.Success? ==> forall i | 0 <= i < |r.value| :: r.value[i].key.Sym?
    decreases |items|
  {
    if |items| == 0 then Success([])
    else
      var head := ArrayDescriptor(items[0], read);
      var tail := ArrayDescriptors(items[1..], read);
      if head.Failure? then Failure(head.error)
      else if tail.Failure? then
        assert exists i | 0 <= i < |items| :: ArrayDescriptor(items[i], read).Failure? by {
          var k :| 0 <= k < |items[1..]| && ArrayDescriptor(items[1..][k], read).Failure?;
          assert items[k + 1] == items[1..][k];
        }
        Failure(tail.error)
      else
        assert forall i | 1 <= i < |items| :: items[i] == items[1..][i - 1];
        Success((if head.value.Some? then [head.value.value] else []) + tail.value)
  }

  // ---------------------------------------------------------------------------
  // Grouping
  // ---------------------------------------------------------------------------

  /** `grouped[c] ||= []; grouped[c] << d`. */
  function Insert(cat: Catalog, c: string, d: Descriptor): Catalog
    decreases |cat|
  {
    if |cat| == 0 then [(c, [d])]
    else if cat[0].0 == c then [(c, cat[0].1 + [d])] + cat[1..]
    else [cat[0]] + Insert(cat[1..], c, d)
  }

  /** The descriptors folded into the catalog one at a time, in order, each
      under the category `category` assigns it. */
  function Group(ds: seq<Descriptor>, category: Descriptor -> string): Catalog
    decreases |ds|
  {
    if |ds| == 0 then []
    else
      var last := ds[|ds| - 1];
      Insert(Group(ds[..|ds| - 1], category), category(last), last)
  }

  /** `grouped.keys`. */
  function Categories(cat: Catalog): (r: seq<string>)
    ensures |r| == |cat|
    ensures forall i | 0 <= i < |cat| :: r[i] == cat[i].0
  {
    seq(|cat|, i requires 0 <= i < |cat| => cat[i].0)
  }

  /** `grouped[c] || []`. */
  function Lookup(cat: Catalog, c: string): seq<Descriptor>
    decreases |cat|
  {
    if |cat| == 0 then [] else if cat[0].0 == c then cat[0].1 else Lookup(cat[1..], c)
  }

  /** Every descriptor of the catalog, category by category. */
  function Flatten(cat: Catalog): seq<Descriptor>
    decreases |cat|
  {
    if |cat| == 0 then [] else cat[0].1 + Flatten(cat[1..])
  }

  /** The descriptors of category `c`, in order. */
  function Filter(ds: seq<Descriptor>, category: Descriptor -> string, c: string): seq<Descriptor>
    decreases |ds|
  {
    if |ds| == 0 then []
    else Filter(ds[..|ds| - 1], category, c) + (if category(ds[|ds| - 1]) == c then [ds[|ds| - 1]] else [])
  }

  /** The category of each descriptor. */
  function CategoriesOf(ds: seq<Descriptor>, category: Descriptor -> string): (r: seq<string>)
    ensures |r| == |ds|
    ensures forall i | 0 <= i < |ds| :: r[i] == category(ds[i])
  {
    seq(|ds|, i requires 0 <= i < |ds| => category(ds[i]))
  }

  /** The first occurrence of each string, in order. */
  function Dedup(cs: seq<string>): seq<string>
    decreases |cs|
  {
    if |cs| == 0 then []
    else Dedup(cs[..|cs| - 1]) + (if cs[|cs| - 1] in cs[..|cs| - 1] then [] else [cs[|cs| - 1]])
  }

  predicate Distinct(cs: seq<string>) {
    forall i, j | 0 <= i < j < |cs| :: cs[i] != cs[j]
  }

  lemma {:induction false} DedupMembers(cs: seq<string>)
    ensures forall x :: x in Dedup(cs) <==> x in cs
    ensures Distinct(Dedup(cs))
    decreases |cs|
  {
    if |cs| > 0 {
      var init := cs[..|cs| - 1];
      DedupMembers(init);
      assert cs == init + [cs[|cs| - 1]];
    }
  }

  lemma {:induction false} InsertLookup(cat: Catalog, c: string, d: Descriptor, x: string)
    ensures Lookup(Insert(cat, c, d), x) == if x == c then Lookup(cat, c) + [d] else Lookup(cat, x)
    decreases |cat|
  {
    if |cat| > 0 {
      if cat[0].0 == c {
        assert Insert(cat, c, d)[1..] == cat[1..];
      } else {
        InsertLookup(cat[1..], c, d, x);
        assert Insert(cat, c, d)[1..] == Insert(cat[1..], c, d);
      }
    }
  }

  lemma {:induction false} InsertCategories(cat: Catalog, c: string, d: Descriptor)
    ensures Categories(Insert(cat, c, d)) ==
      if c in Categories(cat) then Categories(cat) else Categories(cat) + [c]
    decreases |cat|
  {
    if |cat| > 0 {
      var ins := Insert(cat, c, d);
      CategoriesCons(cat[0], cat[1..]);
      assert cat == [cat[0]] + cat[1..];
      if cat[0].0 != c {
        InsertCategories(cat[1..], c, d);
        assert ins == [cat[0]] + Insert(cat[1..], c, d);
        CategoriesCons(cat[0], Insert(cat[1..], c, d));
        assert c in Categories(cat) <==> c in Categories(cat[1..]);
      } else {
        assert ins == [(c, cat[0].1 + [d])] + cat[1..];
        CategoriesCons((c, cat[0].1 + [d]), cat[1..]);
      }
    }
  }

  lemma CategoriesCons(h: (string, seq<Descriptor>), t: Catalog)
    ensures Categories([h] + t) == [h.0] + Categories(t)
  {
  }

  lemma {:induction false} InsertFlatten(cat: Catalog, c: string, d: Descriptor)
    ensures multiset(Flatten(Insert(cat, c, d))) == multiset(Flatten(cat)) + multiset{d}
    decreases |cat|
  {
    if |cat| > 0 {
      if cat[0].0 == c {
        assert Insert(cat, c, d)[1..] == cat[1..];
      } else {
        InsertFlatten(cat[1..], c, d);
        assert Insert(cat, c, d)[1..] == Insert(cat[1..], c, d);
      }
    }
  }

  /** Each category's list is exactly its descriptors, in their order. */
  lemma {:induction false} GroupLookup(ds: seq<Descriptor>, category: Descriptor -> string, c: string)
    ensures Lookup(Group(ds, category), c) == Filter(ds, category, c)
    decreases |ds|
  {
    if |ds| > 0 {
      var last := ds[|ds| - 1];
      GroupLookup(ds[..|ds| - 1], category, c);
      InsertLookup(Group(ds[..|ds| - 1], category), category(last), last, c);
    }
  }

  /** The categories are those of the descriptors, each once, in order of
      first appearance. */
  lemma {:induction false} GroupCategories(ds: seq<Descriptor>, category: Descriptor -> string)
    ensures Categories(Group(ds, category)) == Dedup(CategoriesOf(ds, category))
    ensures Distinct(Categories(Group(ds, category)))
    decreases |ds|
  {
    if |ds| > 0 {
      var init := ds[..|ds| - 1];
      var last := ds[|ds| - 1];
      GroupCategories(init, category);
      InsertCategories(Group(init, category), category(last), last);
      assert CategoriesOf(ds, category)[..|ds| - 1] == CategoriesOf(init, category);
      DedupMembers(CategoriesOf(init, category));
    }
    DedupMembers(CategoriesOf(ds, category));
  }

  /** Every descriptor lands in the catalog exactly once. */
  lemma {:induction false} GroupKeepsAll(ds: seq<Descriptor>, category: Descriptor -> string)
    ensures multiset(Flatten(Group(ds, category))) == multiset(ds)
    decreases |ds|
  {
    if |ds| > 0 {
      var init := ds[..|ds| - 1];
      var last := ds[|ds| - 1];
      assert ds == init + [last];
      GroupKeepsAll(init, category);
      GroupSnocFlatten(init, last, category);
    }
  }

  /** Filing one more descriptor adds exactly it to the catalog. */
  lemma GroupSnocFlatten(init: seq<Descriptor>, last: Descriptor, category: Descriptor -> string)
    ensures multiset(Flatten(Group(init + [last], category)))
         == multiset(Flatten(Group(init, category))) + multiset{last}
  {
    var ds := init + [last];
    assert ds[..|ds| - 1] == init;
    InsertFlatten(Group(init, category), category(last), last);
  }

  // ---------------------------------------------------------------------------
  // build_settings_data
  // ---------------------------------------------------------------------------

  /** The descriptors of the schema, or the error that aborts the build. */
  function Descriptors(setting: SettingClass): Result<seq<Descriptor>, BuildError> {
    match setting.defaults
    case HashSchema(entries) => HashDescriptors(entries, setting.read)
    case ArraySchema(items) => ArrayDescriptors(items, setting.read)
    case OtherSchema => Success([])
  }

  /** `build_settings_data`: `{}` when there is no `Setting` class or its
      defaults have neither shape; otherwise the descriptors grouped by
      `extract_category`: the categories are distinct, in order of first
      appearance, and each list holds exactly the descriptors of its
      category, in schema order. */
  function BuildSettingsData(setting: Option<SettingClass>): (r: Result<Catalog, BuildError>)
    ensures setting.None? ==> r == Success([])
    ensures setting.Some? && setting.value.defaults.OtherSchema? ==> r == Success([])
    ensures setting.Some? ==> (r.Success? <==> Descriptors(setting.value).Success?)
    ensures r.Success? ==> Distinct(Categories(r.value))
    ensures r.Success? && setting.Some? ==>
      var ds := Descriptors(setting.value).value;
      && Categories(r.value) == Dedup(CategoriesOf(ds, CategoryOf))
      && multiset(Flatten(r.value)) == multiset(ds)
      && forall c :: Lookup(r.value, c) == Filter(ds, CategoryOf, c)
  {
    match setting
    case None => Success([])
    case Some(sc) =>
      var ds :- Descriptors(sc);
      GroupCategories(ds, CategoryOf);
      GroupKeepsAll(ds, CategoryOf);
      forall c ensures Lookup(Group(ds, CategoryOf), c) == Filter(ds, CategoryOf, c) {
        GroupLookup(ds, CategoryOf, c);
      }
      Success(Group(ds, CategoryOf))
  }

  // ---------------------------------------------------------------------------
  // Properties
  // ---------------------------------------------------------------------------

  lemma {:induction false} ArrayDescriptorsConcat(a: seq<Entry>, b: seq<Entry>, read: string -> Option<Value>)
    ensures ArrayDescriptors(a + b, read) ==
      match ArrayDescriptors(a, read)
      case Failure(err) => Failure(err)
      case Success(x) =>
        match ArrayDescriptors(b, read)
        case Failure(err) => Failure(err)
        case Success(y) => Success(x + y)
    decreases |a|
  {
    if |a| == 0 {
      assert a + b == b;
      if ArrayDescriptors(b, read).Success? {
        assert [] + ArrayDescriptors(b, read).value == ArrayDescriptors(b, read).value;
      }
    } else {
      assert (a + b)[0] == a[0];
      assert (a + b)[1..] == a[1..] + b;
      ArrayDescriptorsConcat(a[1..], b, read);
      var head := ArrayDescriptor(a[0], read);
      if head.Success? && ArrayDescriptors(a[1..], read).Success? && ArrayDescriptors(b, read).Success? {
        var h := if head.value.Some? then [head.value.value] else [];
        assert h + (ArrayDescriptors(a[1..], read).value + ArrayDescriptors(b, read).value)
            == (h + ArrayDescriptors(a[1..], read).value) + ArrayDescriptors(b, read).value;
      }
    }
  }

  /** An Array entry that yields no key is skipped: the descriptors, and so
      the catalog, are those of the other entries. */
  lemma SkippedEntryLeavesCatalog(a: seq<Entry>, e: Entry, b: seq<Entry>, read: string -> Option<Value>)
    requires !Truthy(ExtractKey(e, read).0)
    ensures ArrayDescriptors(a + [e] + b, read) == ArrayDescriptors(a + b, read)
  {
    assert ArrayDescriptors([e], read) == Success([]) by {
      assert [e][1..] == [];
    }
    ArrayDescriptorsConcat(a, [e], read);
    if ArrayDescriptors(a, read).Success? {
      assert ArrayDescriptors(a, read).value + [] == ArrayDescriptors(a, read).value;
    }
    assert ArrayDescriptors(a + [e], read) == ArrayDescriptors(a, read);
    ArrayDescriptorsConcat(a + [e], b, read);
    ArrayDescriptorsConcat(a, b, read);
  }

  /** An Array entry that yields a key adds its descriptor at the end: with
      SkippedEntryLeavesCatalog, the descriptors are exactly those of the
      entries that yield a key, in entry order. */
  lemma KeptEntryExtendsDescriptors(a: seq<Entry>, e: Entry, read: string -> Option<Value>)
    requires ArrayDescriptors(a, read).Success?
    requires ArrayDescriptor(e, read).Success? && ArrayDescriptor(e, read).value.Some?
    ensures ArrayDescriptors(a + [e], read)
         == Success(ArrayDescriptors(a, read).value + [ArrayDescriptor(e, read).value.value])
  {
    assert ArrayDescriptors([e], read) == Success([ArrayDescriptor(e, read).value.value]) by {
      assert [e][1..] == [];
      assert [ArrayDescriptor(e, read).value.value] + [] == [ArrayDescriptor(e, read).value.value];
    }
    ArrayDescriptorsConcat(a, [e], read);
  }

  /** A String or Symbol entry names the setting as a Symbol; its default is
      what the store reads under that name, nil when the read raises. */
  lemma NamedEntryKey(v: Value, read: string -> Option<Value>)
    requires v.Str? || v.Sym?
    ensures var name := KeyName(v).value;
      && ExtractKey(Literal(v), read).0 == Sym(name)
      && (read(name).Some? ==> ExtractKey(Literal(v), read).1 == read(name).value)
      && (read(name).None? ==> ExtractKey(Literal(v), read).1 == Nil)
  {
  }

  /** A field object answering both `key` and `default` is described by
      those, whatever its `name`; one answering only `name` (and possibly
      `default`) by its name, with a nil default when it has none; one
      answering neither `key` with `default` nor `name` yields no key. */
  lemma ObjectEntryKeyPriority(k: Option<Value>, d: Option<Value>, n: Option<Value>, read: string -> Option<Value>)
    ensures var (key, dflt) := ExtractKey(FieldObject(k, d, n), read);
      && (k.Some? && d.Some? ==> key == k.value && dflt == d.value)
      && (!(k.Some? && d.Some?) && n.Some? ==> key == n.value && dflt == d.GetOr(Nil))
      && (!(k.Some? && d.Some?) && n.None? ==> key == Nil && !Truthy(key))
  {
  }

  /** In a Hash entry `:name` beats `'name'`, which beats the first key; the
      default is found the same way: `:default`, then `'default'`, then the
      first value. */
  lemma HashEntryKeyPriority(entries: seq<(Value, Value)>, read: string -> Option<Value>)
    ensures var (key, _) := ExtractKey(Literal(Hash(entries)), read);
      && (Truthy(HashGet(entries, Sym("name"))) ==> key == HashGet(entries, Sym("name")))
      && (!Truthy(HashGet(entries, Sym("name"))) && Truthy(HashGet(entries, Str("name"))) ==>
            key == HashGet(entries, Str("name")))
      && (!Truthy(HashGet(entries, Sym("name"))) && !Truthy(HashGet(entries, Str("name"))) ==>
            key == FirstKey(entries))
    ensures var (_, dflt) := ExtractKey(Literal(Hash(entries)), read);
      && (Truthy(HashGet(entries, Sym("default"))) ==> dflt == HashGet(entries, Sym("default")))
      && (!Truthy(HashGet(entries, Sym("default"))) && Truthy(HashGet(entries, Str("default"))) ==>
            dflt == HashGet(entries, Str("default")))
      && (!Truthy(HashGet(entries, Sym("default"))) && !Truthy(HashGet(entries, Str("default"))) ==>
            dflt == FirstValue(entries))
  {
  }
}

=== FILE: classifier.dfy ===
/** The field-type classifier of the settings action (`determine_field_type`):
    a setting's display type inferred from its current value, falling back to
    its default, by a fixed first-match order over the value's kind and then
    over the shape of its text. */
module FieldTypes {
  import opened Wrappers
  import opened RubyStrings
  import opened RubyValues

  /** The nine field types (`:boolean`, `:integer`, ... `:string`). */
  datatype FieldType =
    | BooleanField
    | IntegerField
    | FloatField
    | TextField
    | EmailField
    | UrlField
    | ArrayField
    | JsonField
    | StringField

  // ---------------------------------------------------------------------------
  // The e-mail pattern /\A[\w+\-.]+@[a-z\d\-]+(\.[a-z\d\-]+)*\.[a-z]+\z/i
  // ---------------------------------------------------------------------------

  /** The character class [\w+\-.] of the part before the `@`. */
  predicate IsLocalChar(c: char) {
    IsWordChar(c) || c == '+' || c == '-' || c == '.'
  }

  /** The character class [a-z\d\-] of a domain label, case-insensitively. */
  predicate IsLabelChar(c: char) {
    IsAsciiLetter(c) || IsDigit(c) || c == '-'
  }

  /** [\w+\-.]+ */
  predicate IsLocalPart(p: string) {
    |p| > 0 && forall i | 0 <= i < |p| :: IsLocalChar(p[i])
  }

  /** [a-z\d\-]+(\.[a-z\d\-]+)* : non-empty labels separated by single dots. */
  predicate IsLabelList(h: string) {
    && |h| > 0
    && h[0] != '.'
    && h[|h| - 1] != '.'
    && (forall i | 0 <= i < |h| :: IsLabelChar(h[i]) || h[i] == '.')
    && (forall i | 0 <= i < |h| - 1 :: h[i] == '.' ==> h[i + 1] != '.')
  }

  /** [a-z]+ , case-insensitively. */
  predicate IsTopLabel(t: string) {
    |t| > 0 && forall i | 0 <= i < |t| :: IsAsciiLetter(t[i])
  }

  /** The part after the `@`: labels, a dot, and an alphabetic last label. */
  predicate IsDomain(d: string) {
    exists j | 0 <= j < |d| :: d[j] == '.' && IsLabelList(d[..j]) && IsTopLabel(d[j + 1..])
  }

  /** The whole string matches the e-mail pattern: some `@` splits it into a
      local part and a domain. */
  predicate EmailPattern(s: string) {
    exists i | 0 <= i < |s| :: s[i] == '@' && IsLocalPart(s[..i]) && IsDomain(s[i + 1..])
  }

  /** Only the last dot can end the labels: the top label has no dot. */
  lemma DomainSplitsAtLastDot(d: string, j: nat)
    requires LastIndexOf(d, '.') == Some(j)
    ensures IsDomain(d) <==> IsLabelList(d[..j]) && IsTopLabel(d[j + 1..])
  {
    if IsDomain(d) {
      var k :| 0 <= k < |d| && d[k] == '.' && IsLabelList(d[..k]) && IsTopLabel(d[k + 1..]);
      TopLabelHasNoDot(d[k + 1..]);
      OnlyLastOccurrence(d, '.', j, k);
    }
  }

  lemma TopLabelHasNoDot(t: string)
    requires IsTopLabel(t)
    ensures '.' !in t
  {
  }

  /** Two occurrences of `c` each followed by no other `c` are the same one. */
  lemma OnlyLastOccurrence(s: string, c: char, j: nat, k: nat)
    requires j < |s| && s[j] == c && c !in s[j + 1..]
    requires k < |s| && s[k] == c && c !in s[k + 1..]
    ensures j == k
  {
    forall m | k < m < |s| ensures s[m] != c {
      assert s[k + 1..][m - k - 1] == s[m];
    }
    forall m | j < m < |s| ensures s[m] != c {
      assert s[j + 1..][m - j - 1] == s[m];
    }
  }

  /** Matches the domain by splitting at its last dot. */
  function MatchesDomain(d: string): (r: bool)
    ensures r <==> IsDomain(d)
  {
    match LastIndexOf(d, '.')
    case None => false
    case Some(j) =>
      DomainSplitsAtLastDot(d, j);
      IsLabelList(d[..j]) && IsTopLabel(d[j + 1..])
  }

  /** Only the first `@` can end the local part, which has no `@`. */
  lemma EmailSplitsAtFirstAt(s: string, i: nat)
    requires IndexOf(s, '@') == Some(i)
    ensures EmailPattern(s) <==> IsLocalPart(s[..i]) && IsDomain(s[i + 1..])
  {
    if EmailPattern(s) {
      var k :| 0 <= k < |s| && s[k] == '@' && IsLocalPart(s[..k]) && IsDomain(s[k + 1..]);
      AtIsFirst(s, i, k);
    }
    if IsLocalPart(s[..i]) && IsDomain(s[i + 1..]) {
      EmailOfParts(s, i);
    }
  }

  lemma AtIsFirst(s: string, i: nat, k: nat)
    requires IndexOf(s, '@') == Some(i)
    requires k < |s| && s[k] == '@' && IsLocalPart(s[..k])
    ensures k == i
  {
    LocalPartHasNoAt(s[..k]);
    OnlyFirstOccurrence(s, '@', i, k);
  }

  lemma LocalPartHasNoAt(p: string)
    requires IsLocalPart(p)
    ensures '@' !in p
  {
  }

  /** Two occurrences of `c` each preceded by no other `c` are the same one. */
  lemma OnlyFirstOccurrence(s: string, c: char, i: nat, k: nat)
    requires i < |s| && s[i] == c && c !in s[..i]
    requires k < |s| && s[k] == c && c !in s[..k]
    ensures i == k
  {
    forall m | 0 <= m < i ensures s[m] != c {
      assert s[..i][m] == s[m];
    }
    forall m | 0 <= m < k ensures s[m] != c {
      assert s[..k][m] == s[m];
    }
  }

  /** `match?` of the e-mail pattern, done by splitting at the first `@`:
      the local part cannot contain one, so the first `@` is the only
      candidate split. */
  function MatchesEmail(s: string): (r: bool)
    ensures r <==> EmailPattern(s)
  {
    match IndexOf(s, '@')
    case None => false
    case Some(i) =>
      EmailSplitsAtFirstAt(s, i);
      IsLocalPart(s[..i]) && MatchesDomain(s[i + 1..])
  }

  // ---------------------------------------------------------------------------
  // Classification
  // ---------------------------------------------------------------------------

  /** /\Ahttps?:\/\// */
  predicate HasUrlScheme(s: string) {
    StartsWith(s, "http://") || StartsWith(s, "https://")
  }

  /** Longer than 100 characters, or spanning several lines. */
  predicate IsLongText(s: string) {
    |s| > 100 || '\n' in s
  }

  /** The kinds that reach the text tests: everything but a boolean, integer,
      float, array or hash. */
  predicate IsTextual(v: Value) {
    v.Str? || v.Sym? || v.Nil?
  }

  /** `to_s` of a textual value. */
  function TextOf(v: Value): string
    requires IsTextual(v)
  {
    match v
    case Str(s) => s
    case Sym(n) => n
    case Nil => ""
  }

  /** `current_value || default_value`: the value that is classified. */
  function ClassifiedValue(defaultValue: Value, currentValue: Value): Value {
    Or(currentValue, defaultValue)
  }

  /** `determine_field_type`. The first test that holds decides: boolean,
      integer, float, array, hash, then for text long/multi-line before
      e-mail before URL, with plain string last. */
  function DetermineFieldType(defaultValue: Value, currentValue: Value): (t: FieldType)
    ensures var v := ClassifiedValue(defaultValue, currentValue);
      && (t == BooleanField <==> v.Bool?)
      && (t == IntegerField <==> v.Int?)
      && (t == FloatField <==> v.Float?)
      && (t == ArrayField <==> v.List?)
      && (t == JsonField <==> v.Hash?)
      && (t == TextField <==> IsTextual(v) && IsLongText(TextOf(v)))
      && (t == EmailField <==> IsTextual(v) && !IsLongText(TextOf(v)) && EmailPattern(TextOf(v)))
      && (t == UrlField <==> IsTextual(v) && !IsLongText(TextOf(v)) && !EmailPattern(TextOf(v))
                              && HasUrlScheme(TextOf(v)))
      && (t == StringField <==> IsTextual(v) && !IsLongText(TextOf(v)) && !EmailPattern(TextOf(v))
                                 && !HasUrlScheme(TextOf(v)))
  {
    match ClassifiedValue(defaultValue, currentValue)
    case Bool(_) => BooleanField
    case Int(_) => IntegerField
    case Float(_) => FloatField
    case List(_) => ArrayField
    case Hash(_) => JsonField
    case other =>
      var text := TextOf(other);
      if IsLongText(text) then TextField
      else if MatchesEmail(text) then EmailField
      else if HasUrlScheme(text) then UrlField
      else StringField
  }

  /** A truthy current value alone decides the type; a nil or false one hands
      the decision to the default alone. */
  lemma CurrentWinsUnlessFalsy(defaultValue: Value, currentValue: Value)
    ensures Truthy(currentValue) ==>
      DetermineFieldType(defaultValue, currentValue) == DetermineFieldType(Nil, currentValue)
    ensures !Truthy(currentValue) ==>
      DetermineFieldType(defaultValue, currentValue) == DetermineFieldType(defaultValue, Nil)
  {
  }

  /** A `false` current value with a string default is classified by the
      string, never as a boolean. */
  lemma FalseCurrentUsesStringDefault(s: string)
    ensures DetermineFieldType(Str(s), Bool(false)) == DetermineFieldType(Str(s), Str(s))
    ensures DetermineFieldType(Str(s), Bool(false)) != BooleanField
  {
  }

  /** Long or multi-line text is `text` even when it is shaped like an e-mail
      address or a URL. */
  lemma LongTextBeatsEmailAndUrl(defaultValue: Value, s: string)
    requires IsLongText(s)
    ensures DetermineFieldType(defaultValue, Str(s)) == TextField
  {
  }

  /** Every string, the empty one included, is classified as one of the four
      text types. */
  lemma StringsGetTextTypes(defaultValue: Value, s: string)
    ensures DetermineFieldType(defaultValue, Str(s)) in {TextField, EmailField, UrlField, StringField}
  {
  }

  lemma DomainOfParts(d: string, j: nat)
    requires j < |d| && d[j] == '.' && IsLabelList(d[..j]) && IsTopLabel(d[j + 1..])
    ensures IsDomain(d)
  {
  }

  lemma EmailOfParts(s: string, i: nat)
    requires i < |s| && s[i] == '@' && IsLocalPart(s[..i]) && IsDomain(s[i + 1..])
    ensures EmailPattern(s)
  {
  }

  lemma SampleDomain(d: string)
    requires d == "example.com"
    ensures IsDomain(d)
  {
    assert d[..7] == "example";
    assert d[8..] == "com";
    DomainOfParts(d, 7);
  }

  lemma SampleEmailPattern(e: string)
    requires e == "user@example.com"
    ensures EmailPattern(e)
  {
    assert e[..4] == "user";
    SampleDomain(e[5..]);
    EmailOfParts(e, 4);
  }

  lemma ShortLine(s: string)
    requires s == "user@example.com" || s == "https://example.org"
    ensures !IsLongText(s)
  {
    assert forall i | 0 <= i < |s| :: s[i] != '\n';
  }

  lemma ClassifiesSampleEmail(defaultValue: Value, email: string)
    requires email == "user@example.com"
    ensures DetermineFieldType(defaultValue, Str(email)) == EmailField
  {
    SampleEmailPattern(email);
    ShortLine(email);
  }

  lemma ClassifiesSampleUrl(defaultValue: Value, url: string)
    requires url == "https://example.org"
    ensures DetermineFieldType(defaultValue, Str(url)) == UrlField
  {
    ShortLine(url);
    assert forall i | 0 <= i < |url| :: url[i] != '@';
    assert !EmailPattern(url);
    assert url[..8] == "https://";
  }
}

=== FILE: converter.dfy ===
/** The value converter of the settings action (`convert_value`): a submitted
    form value is turned back into a typed value according to the kind of the
    setting's schema default. Exceptions the Ruby code lets escape become a
    `Failure`; the one it rescues (a JSON parse error) yields the raw value. */
module Converter {
  import opened Wrappers
  import opened RubyStrings
  import opened RubyValues

  /** The exceptions that escape `convert_value`. */
  datatype ConvertError =
    | NoMethod(name: string)  // NoMethodError: the value has no `to_i`, `to_f` or `split`, or the defaults no `[]`
    | NotAString              // TypeError: JSON.parse was given something other than a String
    | FloatDomain             // FloatDomainError: Float#to_i of an infinity or NaN
    | NotAnIndex              // TypeError: the defaults' `[]` does not take a Symbol

  /** What the `Setting` class answers to the default-probing methods, in the
      order the settings action tries them; None when it does not respond to
      the method. */
  datatype DefaultsSource = DefaultsSource(
    getDefaults: Option<Value>,
    defaults: Option<Value>,
    underscoreDefaults: Option<Value>,
    definedFields: Option<Value>,
    underscoreDefinedFields: Option<Value>)

  /** The defaults `convert_value` looks keys up in: `get_defaults`, else
      `defaults`, else `_defaults`, else `{}`. Unlike the catalog builder it
      does not try `defined_fields` or `_defined_fields`. */
  function ConverterDefaults(src: DefaultsSource): (r: Value)
    ensures src.getDefaults.Some? ==> r == src.getDefaults.value
    ensures src.getDefaults.None? && src.defaults.Some? ==> r == src.defaults.value
    ensures src.getDefaults.None? && src.defaults.None? && src.underscoreDefaults.Some? ==>
      r == src.underscoreDefaults.value
    ensures src.getDefaults.None? && src.defaults.None? && src.underscoreDefaults.None? ==> r == Hash([])
  {
    if src.getDefaults.Some? then src.getDefaults.value
    else if src.defaults.Some? then src.defaults.value
    else if src.underscoreDefaults.Some? then src.underscoreDefaults.value
    else Hash([])
  }

  /** `defaults[key.to_sym] || defaults[key.to_s]`: the symbol-keyed default
      unless it is nil or false, then the string-keyed one. */
  function OriginalValue(defaults: seq<(Value, Value)>, key: string): (r: Value)
    ensures Truthy(HashGet(defaults, Sym(key))) ==> r == HashGet(defaults, Sym(key))
    ensures !Truthy(HashGet(defaults, Sym(key))) ==> r == HashGet(defaults, Str(key))
    ensures (forall i | 0 <= i < |defaults| :: defaults[i].0 != Sym(key) && defaults[i].0 != Str(key)) ==>
      r == Nil
    ensures r != Nil ==>
      exists i | 0 <= i < |defaults| :: defaults[i] == (Sym(key), r) || defaults[i] == (Str(key), r)
  {
    Or(HashGet(defaults, Sym(key)), HashGet(defaults, Str(key)))
  }

  /** `value.to_i`. */
  function ToInteger(value: Value, rt: Runtime): (r: Result<Value, ConvertError>)
    ensures r.Success? ==> r.value.Int?
    ensures r.Failure? <==> value.Bool? || value.Sym? || value.List? || value.Hash?
                            || (value.Float? && rt.floatToI(value.bits).None?)
    ensures value.Str? ==> r == Success(Int(ToI(value.s)))
    ensures value.Int? ==> r == Success(value)
  {
    match value
    case Str(s) => Success(Int(ToI(s)))
    case Int(_) => Success(value)
    case Float(f) =>
      (match rt.floatToI(f)
       case Some(n) => Success(Int(n))
       case None => Failure(FloatDomain))
    case Nil => Success(Int(0))
    case _ => Failure(NoMethod("to_i"))
  }

  /** `value.to_f`. */
  function ToFloat(value: Value, rt: Runtime): (r: Result<Value, ConvertError>)
    ensures r.Success? ==> r.value.Float?
    ensures value.Float? ==> r == Success(value)
    ensures r.Failure? <==> !(value.Str? || value.Int? || value.Float? || value.Nil?)
  {
    match value
    case Str(s) => Success(Float(rt.stringToF(s)))
    case Int(n) => Success(Float(rt.intToF(n)))
    case Float(_) => Success(value)
    case Nil => Success(Float(0))
    case _ => Failure(NoMethod("to_f"))
  }

  /** `xs.map(&:strip)`. */
  function StripAll(xs: seq<string>): (r: seq<string>)
    ensures |r| == |xs|
    ensures forall i | 0 <= i < |xs| :: r[i] == Strip(xs[i])
  {
    seq(|xs|, i requires 0 <= i < |xs| => Strip(xs[i]))
  }

  /** `s.split(',').map(&:strip)`: the comma-separated pieces of `s`, each
      stripped. */
  function SplitAndStrip(s: string): (r: seq<string>)
    ensures |r| == |Split(s, ',')|
    ensures forall i | 0 <= i < |r| :: r[i] == Strip(Split(s, ',')[i])
    ensures forall i | 0 <= i < |r| :: IsStripped(r[i]) && ',' !in r[i]
  {
    var pieces := Split(s, ',');
    var r := StripAll(pieces);
    forall i | 0 <= i < |r| ensures ',' !in r[i] {
      StripKeepsOut(pieces[i], ',');
    }
    r
  }

  /** `value.split(',').map(&:strip)` as an array of strings. */
  function SplitValue(value: Value): (r: Result<Value, ConvertError>)
    ensures r.Success? <==> value.Str?
  {
    match value
    case Str(s) => Success(List(Strs(SplitAndStrip(s))))
    case _ => Failure(NoMethod("split"))
  }

  /** `JSON.parse(value)` under the method's `rescue JSON::ParserError`: the
      parsed value, or the raw value when the text is not JSON. */
  function ParseValue(value: Value, rt: Runtime): (r: Result<Value, ConvertError>)
    ensures r.Success? <==> value.Str?
    ensures value.Str? && rt.parseJson(value.s).None? ==> r == Success(value)
    ensures value.Str? && rt.parseJson(value.s).Some? ==> r == Success(rt.parseJson(value.s).value)
  {
    match value
    case Str(s) =>
      (match rt.parseJson(s)
       case Some(v) => Success(v)
       case None => Success(value))
    case _ => Failure(NotAString)
  }

  /** `convert_value(key, value)`: blank input is nil whatever the setting;
      otherwise the kind of the original default picks the conversion. */
  function ConvertValue(key: string, value: Value, defaults: seq<(Value, Value)>, rt: Runtime)
    : (r: Result<Value, ConvertError>)
    ensures IsBlankValue(value) ==> r == Success(Nil)
    ensures value.Str? ==> r.Success?
    ensures !IsBlankValue(value) && OriginalValue(defaults, key).Bool? ==>
      (r == Success(Bool(true)) <==> value == Str("1") || value == Str("true"))
      && (r == Success(Bool(false)) <==> value != Str("1") && value != Str("true"))
    ensures !IsBlankValue(value) && OriginalValue(defaults, key).List? ==>
      (value.List? ==> r == Success(value))
      && (value.Str? ==> r.value.List? && forall i | 0 <= i < |r.value.items| ::
            r.value.items[i].Str? && IsStripped(r.value.items[i].s) && ',' !in r.value.items[i].s)
    ensures !IsBlankValue(value) && OriginalValue(defaults, key).Hash? ==>
      (value.Hash? ==> r == Success(value))
      && (value.Str? && rt.parseJson(value.s).None? ==> r == Success(value))
      && (value.Str? && rt.parseJson(value.s).Some? ==> r == Success(rt.parseJson(value.s).value))
    ensures !IsBlankValue(value) && OriginalValue(defaults, key).List? && value.Str? ==> r == SplitValue(value)
    ensures !IsBlankValue(value) && !IsTyped(OriginalValue(defaults, key)) ==> r == Success(value)
    ensures !IsBlankValue(value) ==>
      var original := OriginalValue(defaults, key);
      r.Failure? <==> || (original.Int? && ToInteger(value, rt).Failure?)
                      || (original.Float? && ToFloat(value, rt).Failure?)
                      || (original.List? && !value.List? && !value.Str?)
                      || (original.Hash? && !value.Hash? && !value.Str?)
  {
    if IsBlankValue(value) then Success(Nil)
    else ConvertAs(OriginalValue(defaults, key), value, rt)
  }

  /** The `case original_value` dispatch of `convert_value`, for a value that
      is not blank. Only the `to_i`, `to_f`, `split` and `JSON.parse` arms
      can raise: `to_i` and `to_f` on the kinds that lack them, `split` on
      anything but a String and `JSON.parse` on anything but a String; a
      boolean or untyped setting never does. */
  function ConvertAs(original: Value, value: Value, rt: Runtime): (r: Result<Value, ConvertError>)
    ensures r.Failure? ==> original.Int? || original.Float? || original.List? || original.Hash?
    ensures r.Failure? <==> || (original.Int? && ToInteger(value, rt).Failure?)
                            || (original.Float? && ToFloat(value, rt).Failure?)
                            || (original.List? && !value.List? && !value.Str?)
                            || (original.Hash? && !value.Hash? && !value.Str?)
    ensures original.List? && value.List? ==> r == Success(value)
    ensures original.Hash? && value.Hash? ==> r == Success(value)
  {
    match original
    case Bool(_) => Success(Bool(value == Str("1") || value == Str("true")))
    case Int(_) => ToInteger(value, rt)
    case Float(_) => ToFloat(value, rt)
    case List(_) => if value.List? then Success(value) else SplitValue(value)
    case Hash(_) => if value.Hash? then Success(value) else ParseValue(value, rt)
    case _ => Success(value)
  }

  /** The kinds of default that select a conversion; values submitted for any
      other setting are stored as they come. */
  predicate IsTyped(original: Value) {
    original.Bool? || original.Int? || original.Float? || original.List? || original.Hash?
  }

  /** The whole of `convert_value`: blank input is nil before the defaults are
      looked at; otherwise `defaults[key.to_sym]` needs a Hash, and any other
      shape raises (nil, true, false and floats have no `[]`; arrays,
      strings, symbols and integers reject a Symbol index). */
  function ConvertSubmitted(key: string, value: Value, src: DefaultsSource, rt: Runtime)
    : (r: Result<Value, ConvertError>)
    ensures IsBlankValue(value) ==> r == Success(Nil)
    ensures !IsBlankValue(value) ==>
      (r == Failure(NoMethod("[]")) <==> ConverterDefaults(src).Nil? || ConverterDefaults(src).Bool?
                                          || ConverterDefaults(src).Float?)
    ensures !IsBlankValue(value) ==>
      (r == Failure(NotAnIndex) <==> ConverterDefaults(src).List? || ConverterDefaults(src).Str?
                                     || ConverterDefaults(src).Sym? || ConverterDefaults(src).Int?)
    ensures ConverterDefaults(src).Hash? ==>
      r == ConvertValue(key, value, ConverterDefaults(src).entries, rt)
  {
    if IsBlankValue(value) then Success(Nil)
    else
      match ConverterDefaults(src)
      case Hash(entries) => ConvertValue(key, value, entries, rt)
      case Nil => Failure(NoMethod("[]"))
      case Bool(_) => Failure(NoMethod("[]"))
      case Float(_) => Failure(NoMethod("[]"))
      case _ => Failure(NotAnIndex)
  }

  // ---------------------------------------------------------------------------
  // Properties
  // ---------------------------------------------------------------------------

  /** A `false` default under the symbol key is skipped by `||`: without a
      string-keyed default the setting has no typed original, so a submitted
      "1" is stored as the string "1", not as `true`. */
  lemma FalseDefaultIsNotBoolean(key: string, defaults: seq<(Value, Value)>, value: Value, rt: Runtime)
    requires HashGet(defaults, Sym(key)) == Bool(false)
    requires forall i | 0 <= i < |defaults| :: defaults[i].0 != Str(key)
    ensures OriginalValue(defaults, key) == Nil
    ensures ConvertValue(key, value, defaults, rt) == Success(if IsBlankValue(value) then Nil else value)
  {
  }

  /** A two-element checkbox submission `["0", "1"]` for a boolean setting
      converts to `false`: the list is not blank and is not equal to "1". */
  lemma CheckboxPairIsFalse(key: string, defaults: seq<(Value, Value)>, rt: Runtime, b: bool)
    requires OriginalValue(defaults, key) == Bool(b)
    ensures ConvertValue(key, List([Str("0"), Str("1")]), defaults, rt) == Success(Bool(false))
  {
  }

  /** Whitespace-only text is nil for an integer setting, not 0. */
  lemma BlankIntegerIsNil(key: string, defaults: seq<(Value, Value)>, rt: Runtime, s: string, n: int)
    requires OriginalValue(defaults, key) == Int(n)
    requires forall i | 0 <= i < |s| :: s[i] == ' '
    ensures ConvertValue(key, Str(s), defaults, rt) == Success(Nil)
  {
  }

  /** For an integer setting the decimal text of an integer converts back to
      that integer. */
  lemma IntegerTextConverts(key: string, defaults: seq<(Value, Value)>, rt: Runtime, n: int, m: int)
    requires OriginalValue(defaults, key) == Int(m)
    ensures ConvertValue(key, Str(IntToS(n)), defaults, rt) == Success(Int(n))
  {
    NumeralNotBlank(n);
    IntegerUsesToInteger(key, Str(IntToS(n)), defaults, rt, m);
    ToIntegerOfNumeral(n, rt);
  }

  lemma ToIntegerOfNumeral(n: int, rt: Runtime)
    ensures ToInteger(Str(IntToS(n)), rt) == Success(Int(n))
  {
    IntRoundTrip(n);
  }

  /** A value that is not blank, for an integer setting, goes through `to_i`. */
  lemma IntegerUsesToInteger(key: string, v: Value, defaults: seq<(Value, Value)>, rt: Runtime, m: int)
    requires OriginalValue(defaults, key) == Int(m)
    requires !IsBlankValue(v)
    ensures ConvertValue(key, v, defaults, rt) == ToInteger(v, rt)
  {
  }

  /** A value that is not blank, for a float setting, is converted by `to_f`. */
  lemma FloatUsesToFloat(key: string, v: Value, defaults: seq<(Value, Value)>, rt: Runtime)
    requires OriginalValue(defaults, key).Float?
    requires !IsBlankValue(v)
    ensures ConvertValue(key, v, defaults, rt) == ToFloat(v, rt)
  {
  }

  /** A class that exposes its defaults only through `defined_fields` or
      `_defined_fields`, whatever they hold, gives `convert_value` the empty Hash: every submitted value is stored as it
      comes, untyped. */
  lemma DefinedFieldsOnlyIsUntyped(key: string, value: Value, src: DefaultsSource, rt: Runtime)
    requires src.getDefaults.None? && src.defaults.None? && src.underscoreDefaults.None?
    requires src.definedFields.Some? || src.underscoreDefinedFields.Some?
    ensures ConvertSubmitted(key, value, src, rt) == Success(if IsBlankValue(value) then Nil else value)
  {
  }

  /** An Array of field entries, which the catalog builder accepts, makes
      every non-blank submission raise in `convert_value`. */
  lemma ArrayDefaultsRaise(key: string, value: Value, src: DefaultsSource, rt: Runtime)
    requires ConverterDefaults(src).List? && !IsBlankValue(value)
    ensures ConvertSubmitted(key, value, src, rt) == Failure(NotAnIndex)
  {
  }

  lemma NumeralNotBlank(n: int)
    ensures !IsBlank(IntToS(n))
  {
    var s := IntToS(n);
    if n < 0 {
      assert s[0] == '-';
    } else {
      assert IsDigit(s[0]);
    }
  }
}

=== FILE: naming.dfy ===
/** What the settings action derives from a setting's key alone: its category
    (`extract_category`), its label (`key.to_s.humanize`) and its description
    hint (`extract_description`). */
module Naming {
  import opened Wrappers
  import opened RubyStrings

  /** The category of keys with a single segment. */
  const General := "General"

  const MailHint := "Email related configuration"
  const ApiHint := "API configuration"
  const CacheHint := "Caching configuration"

  // ---------------------------------------------------------------------------
  // Segments, stated without split
  // ---------------------------------------------------------------------------

  /** Some character after the first underscore is not an underscore, which is
      when `split('_')` yields more than one segment. */
  predicate HasSecondSegment(key: string) {
    match IndexOf(key, '_')
    case None => false
    case Some(i) => exists j | i < j < |key| :: key[j] != '_'
  }

  /** The text before the first underscore. */
  function FirstSegment(key: string): string {
    match IndexOf(key, '_')
    case None => key
    case Some(i) => key[..i]
  }

  /** `s` has a character other than `c`. */
  predicate HasOtherThan(s: string, c: char) {
    exists j | 0 <= j < |s| :: s[j] != c
  }

  lemma HasOtherThanConcat(a: string, b: string, c: char)
    ensures HasOtherThan(a + b, c) <==> HasOtherThan(a, c) || HasOtherThan(b, c)
  {
    if HasOtherThan(a, c) {
      var j :| 0 <= j < |a| && a[j] != c;
      assert (a + b)[j] == a[j];
    }
    if HasOtherThan(b, c) {
      var j :| 0 <= j < |b| && b[j] != c;
      assert (a + b)[|a| + j] == b[j];
    }
    if HasOtherThan(a + b, c) {
      var j :| 0 <= j < |a + b| && (a + b)[j] != c;
      if j >= |a| {
        assert b[j - |a|] == (a + b)[j];
      } else {
        assert a[j] == (a + b)[j];
      }
    }
  }

  /** Joined with `c`, pieces free of `c` show a character other than `c`
      exactly when one of them is non-empty. */
  lemma {:induction false} JoinShowsNonEmptyPiece(xs: seq<string>, c: char)
    requires forall i | 0 <= i < |xs| :: c !in xs[i]
    ensures HasOtherThan(JoinWith(xs, [c]), c) <==> exists k | 0 <= k < |xs| :: xs[k] != ""
    decreases |xs|
  {
    if |xs| == 1 {
      if xs[0] != "" {
        assert xs[0][0] != c;
      }
    } else if |xs| > 1 {
      JoinShowsNonEmptyPiece(xs[1..], c);
      HasOtherThanConcat(xs[0], [c], c);
      HasOtherThanConcat(xs[0] + [c], JoinWith(xs[1..], [c]), c);
      if xs[0] != "" {
        assert xs[0][0] != c;
      }
      if exists k | 1 <= k < |xs| :: xs[k] != "" {
        var k :| 1 <= k < |xs| && xs[k] != "";
        assert xs[1..][k - 1] != "";
      }
      if exists k | 0 <= k < |xs[1..]| :: xs[1..][k] != "" {
        var k :| 0 <= k < |xs[1..]| && xs[1..][k] != "";
        assert xs[k + 1] != "";
      }
    }
  }

  /** `split('_')` yields more than one segment exactly when the key has a
      second segment, and then its first segment is the text before the
      first underscore. */
  lemma SplitSegments(key: string)
    ensures |Split(key, '_')| > 1 <==> HasSecondSegment(key)
    ensures |Split(key, '_')| > 1 ==> Split(key, '_')[0] == FirstSegment(key)
  {
    var fs := Fields(key, '_');
    DroppedAreEmpty(fs);
    match IndexOf(key, '_')
    case None =>
    case Some(i) =>
      var rest := key[i + 1..];
      var tail := Fields(rest, '_');
      assert fs == [key[..i]] + tail;
      JoinOfFields(rest, '_');
      JoinShowsNonEmptyPiece(tail, '_');
      assert HasSecondSegment(key) <==> HasOtherThan(rest, '_') by {
        if HasOtherThan(rest, '_') {
          var j :| 0 <= j < |rest| && rest[j] != '_';
          assert key[i + 1 + j] == rest[j];
        }
        if HasSecondSegment(key) {
          var j :| i < j < |key| && key[j] != '_';
          assert rest[j - i - 1] == key[j];
        }
      }
      if exists k | 0 <= k < |tail| :: tail[k] != "" {
        var k :| 0 <= k < |tail| && tail[k] != "";
        assert fs[k + 1] != "";
      }
  }

  // ---------------------------------------------------------------------------
  // Category
  // ---------------------------------------------------------------------------

  /** A word with its first character upcased and every other one
      downcased (ASCII letters only). */
  function Capitalized(w: string): (r: string)
    ensures |r| == |w|
  {
    seq(|w|, i requires 0 <= i < |w| => if i == 0 then Upcase(w[0]) else Downcase(w[i]))
  }

  lemma UpcaseOfDowncase(c: char)
    ensures Upcase(Downcase(c)) == Upcase(c)
  {
  }

  /** Without underscores there is nothing to replace and no "_id" to drop:
      only the leading whitespace goes. */
  lemma HumanizeTextOfSegment(w: string)
    requires '_' !in w
    ensures HumanizeText(w) == LStrip(w)
  {
    assert Tr(w, '_', ' ') == w;
    if |w| >= 3 {
      assert w[|w| - 3..][0] == w[|w| - 3];
    }
  }

  /** Lowering every letter and then upcasing the first is capitalising. */
  lemma CapitalizeDowncased(s: string)
    ensures CapitalizeFirst(DowncaseAll(s)) == Capitalized(s)
  {
    var r := CapitalizeFirst(DowncaseAll(s));
    var cap := Capitalized(s);
    forall i | 0 <= i < |s| ensures r[i] == cap[i] {
      if i == 0 {
        UpcaseOfDowncase(s[0]);
      }
    }
  }

  /** Humanizing a segment without underscores capitalises what is left
      after its leading whitespace goes. */
  lemma HumanizeSegment(w: string)
    requires '_' !in w
    ensures Humanize(w) == Capitalized(LStrip(w))
  {
    HumanizeTextOfSegment(w);
    CapitalizeDowncased(LStrip(w));
  }

  /** `extract_category`: keys with fewer than two underscore-separated
      segments belong to "General"; otherwise the category is the first
      segment, without leading whitespace, capitalised. The body reads the
      segments off the first underscore (HasSecondSegment, FirstSegment);
      ExtractCategoryIsSplit shows it agrees with `split('_')` followed by
      `humanize` of the first part. */
  function ExtractCategory(key: string): (r: string)
    ensures !HasSecondSegment(key) ==> r == General
    ensures HasSecondSegment(key) ==> r == Capitalized(LStrip(FirstSegment(key)))
  {
    SplitSegments(key);
    if HasSecondSegment(key) then
      FirstSegmentHasNoUnderscore(key);
      HumanizeSegment(FirstSegment(key));
      Humanize(FirstSegment(key))
    else
      General
  }

  /** The category as the source computes it: split, then humanize the first
      part when there is more than one. */
  lemma ExtractCategoryIsSplit(key: string)
    ensures var parts := Split(key, '_');
      ExtractCategory(key) == if |parts| > 1 then Humanize(parts[0]) else General
  {
    SplitSegments(key);
  }

  /** The first segment holds no underscore. */
  lemma FirstSegmentHasNoUnderscore(key: string)
    ensures '_' !in FirstSegment(key)
  {
    match IndexOf(key, '_')
    case None =>
    case Some(i) =>
      var w := key[..i];
      forall m | 0 <= m < |w| ensures w[m] != '_' {
        assert w[m] == key[m];
      }
  }

  lemma ApiKeySegments(key: string)
    requires key == "api_key"
    ensures HasSecondSegment(key) && FirstSegment(key) == "api"
  {
    IndexOfIs(key, '_', 3);
    assert key[4] != '_';
    assert key[..3] == "api";
  }

  lemma CapitalizedApi(w: string)
    requires w == "api"
    ensures Capitalized(w) == "Api"
  {
    var r := Capitalized(w);
    assert r[0] == 'A';
    assert r[1] == 'p';
    assert r[2] == 'i';
  }

  /** A key whose first segment starts with a letter is in that segment's
      capitalised category. */
  lemma CategoryIsFirstSegment(key: string, w: string)
    requires HasSecondSegment(key) && FirstSegment(key) == w
    requires |w| > 0 && IsAsciiLetter(w[0])
    ensures ExtractCategory(key) == Capitalized(w)
  {
    LStripOfStripped(w);
  }

  /** `api_key` is in category "Api": humanize does not upcase acronyms. */
  lemma ApiKeyCategory(key: string)
    requires key == "api_key"
    ensures ExtractCategory(key) == "Api"
  {
    ApiKeySegments(key);
    CategoryIsFirstSegment(key, "api");
    CapitalizedApi("api");
  }

  lemma MailFromSegments(key: string)
    requires key == "mail_from"
    ensures HasSecondSegment(key) && FirstSegment(key) == "mail"
  {
    IndexOfIs(key, '_', 4);
    assert key[5] != '_';
    assert key[..4] == "mail";
  }

  lemma CapitalizedMail(w: string)
    requires w == "mail"
    ensures Capitalized(w) == "Mail"
  {
    var r := Capitalized(w);
    assert r[0] == 'M';
    assert r[1] == 'a';
    assert r[2] == 'i';
    assert r[3] == 'l';
  }

  /** `mail_from` is in category "Mail". */
  lemma MailFromCategory(key: string)
    requires key == "mail_from"
    ensures ExtractCategory(key) == "Mail"
  {
    MailFromSegments(key);
    CategoryIsFirstSegment(key, "mail");
    CapitalizedMail("mail");
  }

  /** A key without an underscore, or whose underscores are all trailing, is
      in "General". */
  lemma SampleGeneralCategories(timeout: string, trailing: string)
    requires timeout == "timeout" && trailing == "foo_"
    ensures ExtractCategory(timeout) == General
    ensures ExtractCategory(trailing) == General
  {
    assert '_' !in timeout;
    IndexOfIs(trailing, '_', 3);
  }

  // ---------------------------------------------------------------------------
  // Description hint
  // ---------------------------------------------------------------------------

  /** `extract_description`: the first of "mail", "api", "cache" that occurs
      in the key picks the hint; none of them, no hint. */
  function ExtractDescription(key: string): (r: Option<string>)
    ensures r == Some(MailHint) <==> Mentions(key, "mail")
    ensures r == Some(ApiHint) <==> !Mentions(key, "mail") && Mentions(key, "api")
    ensures r == Some(CacheHint) <==>
      !Mentions(key, "mail") && !Mentions(key, "api") && Mentions(key, "cache")
    ensures r == None <==>
      !Mentions(key, "mail") && !Mentions(key, "api") && !Mentions(key, "cache")
  {
    if Contains(key, "mail") then Some(MailHint)
    else if Contains(key, "api") then Some(ApiHint)
    else if Contains(key, "cache") then Some(CacheHint)
    else None
  }
}

=== FILE: render.dfy ===
/** The form renderer (`render_setting_field` and its two private helpers):
    the control each setting gets, described by its parameters rather than
    as HTML. */
module FormRenderer {
  import opened Wrappers
  import opened RubyStrings
  import opened RubyValues
  import opened FieldTypes

  /** The `step` of a number field: 1 or 0.01. */
  datatype Step = StepOne | StepHundredth

  /** What a control is pre-filled with: the current value itself (the tag
      helper prints it), or a text the renderer formats first. */
  datatype Prefill = Raw(v: Value) | Formatted(text: string)

  /** The input controls, with the parameters that tell them apart. */
  datatype Widget =
    | CheckBox(value: string, checked: bool, hiddenValue: string, caption: string)
    | NumberInput(prefill: Value, step: Step)
    | TextArea(content: Prefill, rows: nat, placeholder: Option<string>, help: Option<string>)
    | EmailInput(prefill: Value)
    | UrlInput(prefill: Value)
    | TextInput(content: Prefill, placeholder: Option<string>, help: Option<string>)

  /** A control bound to a setting: its parameter name, its element id and
      its widget. */
  datatype Control = Control(name: string, id: string, widget: Widget)

  const ArrayPlaceholder := "Enter comma-separated values"
  const ArrayHelp := "Separate multiple values with commas"
  const JsonPlaceholder := "{\"key\": \"value\"}"
  const JsonHelp := "Enter valid JSON"

  /** `"settings[#{key}]"`: the key nested under `settings` in the request
      parameters. */
  function FieldName(key: string): (r: string)
    ensures |r| == |key| + 10
    ensures r[9..|r| - 1] == key
  {
    "settings[" + key + "]"
  }

  /** `"setting_#{key}"`. */
  function FieldId(key: string): (r: string)
    ensures |r| == |key| + 8
    ensures r[8..] == key
  {
    "setting_" + key
  }

  /** Distinct keys give distinct parameter names and distinct element ids. */
  lemma NamesAreInjective(a: string, b: string)
    ensures FieldName(a) == FieldName(b) ==> a == b
    ensures FieldId(a) == FieldId(b) ==> a == b
  {
  }

  /** `render_array_field`: an array is shown as its elements joined by ", ",
      anything else by `to_s`. */
  function ArrayPrefill(current: Value, rt: Runtime): string {
    if current.List? then Join(current, ", ", rt) else ToS(current, rt)
  }

  /** `render_json_field`: a string is shown as it is, anything else as JSON. */
  function JsonPrefill(current: Value, rt: Runtime): string {
    if current.Str? then current.s else rt.toJson(current)
  }

  /** A string is shown as it is by both helpers; a non-array is shown by
      the array field as its `to_s`, and a non-string by the JSON field as
      its JSON encoding. */
  lemma PrefillsOfText(current: Value, rt: Runtime)
    ensures current.Str? ==> ArrayPrefill(current, rt) == current.s && JsonPrefill(current, rt) == current.s
    ensures !current.List? ==> ArrayPrefill(current, rt) == ToS(current, rt)
    ensures !current.Str? ==> JsonPrefill(current, rt) == rt.toJson(current)
  {
  }

  /** `render_setting_field`: the control for a setting of type `fieldType`
      whose key prints as `key` and whose current value is `current`. */
  function RenderSettingField(key: string, fieldType: FieldType, current: Value, rt: Runtime)
    : (c: Control)
    ensures c.name == FieldName(key) && c.id == FieldId(key)
    ensures c.widget.CheckBox? <==> fieldType == BooleanField
    ensures c.widget.CheckBox? ==>
      && c.widget.value == "1" && c.widget.hiddenValue == "0" && c.widget.caption == "Enabled"
      && (c.widget.checked <==> Truthy(current))
    ensures c.widget.NumberInput? <==> fieldType in {IntegerField, FloatField}
    ensures c.widget.NumberInput? ==>
      c.widget.prefill == current && (c.widget.step == StepOne <==> fieldType == IntegerField)
    ensures c.widget.TextArea? <==> fieldType in {TextField, JsonField}
    ensures c.widget.TextArea? ==> c.widget.rows == (if fieldType == TextField then 4 else 6)
    ensures c.widget.EmailInput? <==> fieldType == EmailField
    ensures c.widget.UrlInput? <==> fieldType == UrlField
    ensures c.widget.TextInput? <==> fieldType in {ArrayField, StringField}
    ensures c.widget.EmailInput? || c.widget.UrlInput? ==> c.widget.prefill == current
    ensures fieldType == ArrayField ==>
      && c.widget.content == Formatted(ArrayPrefill(current, rt))
      && c.widget.placeholder == Some(ArrayPlaceholder) && c.widget.help == Some(ArrayHelp)
    ensures fieldType == JsonField ==>
      && c.widget.content == Formatted(JsonPrefill(current, rt))
      && c.widget.placeholder == Some(JsonPlaceholder) && c.widget.help == Some(JsonHelp)
    ensures fieldType in {TextField, StringField} ==>
      c.widget.content == Raw(current) && c.widget.placeholder.None? && c.widget.help.None?
  {
    var widget :=
      match fieldType
      case BooleanField => CheckBox("1", Truthy(current), "0", "Enabled")
      case IntegerField => NumberInput(current, StepOne)
      case FloatField => NumberInput(current, StepHundredth)
      case TextField => TextArea(Raw(current), 4, None, None)
      case EmailField => EmailInput(current)
      case UrlField => UrlInput(current)
      case ArrayField => TextInput(Formatted(ArrayPrefill(current, rt)), Some(ArrayPlaceholder), Some(ArrayHelp))
      case JsonField => TextArea(Formatted(JsonPrefill(current, rt)), 6, Some(JsonPlaceholder), Some(JsonHelp))
      case StringField => TextInput(Raw(current), None, None);
    Control(FieldName(key), FieldId(key), widget)
  }
}

=== FILE: roundtrip.dfy ===
/** What the form shows, submitted back unchanged, is converted to what it
    showed: the array field's `join(', ')` against the converter's
    `split(',').map(&:strip)`, the checkbox's two values, a number field's
    integer text, and the JSON field's encoding. */
module RoundTrips {
  import opened Wrappers
  import opened RubyStrings
  import opened RubyValues
  import opened FieldTypes
  import opened Converter
  import opened FormRenderer

  /** Each string behind a space. */
  function Prefixed(xs: seq<string>): (r: seq<string>)
    ensures |r| == |xs|
    ensures forall i | 0 <= i < |xs| :: r[i] == " " + xs[i]
  {
    seq(|xs|, i requires 0 <= i < |xs| => " " + xs[i])
  }

  lemma JoinLeadingSpace(x: string, rest: seq<string>, sep: string)
    ensures JoinWith([" " + x] + rest, sep) == " " + JoinWith([x] + rest, sep)
  {
    if |rest| > 0 {
      assert ([" " + x] + rest)[1..] == rest;
      assert ([x] + rest)[1..] == rest;
    }
  }

  /** Joining with ", " is joining with "," after putting a space in front of
      every string but the first. */
  lemma {:induction false} CommaSpaceJoin(xs: seq<string>)
    requires |xs| > 0
    ensures JoinWith(xs, ", ") == JoinWith([xs[0]] + Prefixed(xs[1..]), [','])
    decreases |xs|
  {
    if |xs| > 1 {
      CommaSpaceJoin(xs[1..]);
      var ys := [xs[0]] + Prefixed(xs[1..]);
      assert ys[1..] == Prefixed(xs[1..]);
      assert Prefixed(xs[1..]) == [" " + xs[1]] + Prefixed(xs[2..]);
      assert xs[1..][1..] == xs[2..];
      JoinLeadingSpace(xs[1], Prefixed(xs[2..]), [',']);
    }
  }

  /** The pieces the converter reads back from the pre-filled text. */
  lemma SplitOfCommaSpaceJoin(xs: seq<string>)
    requires |xs| > 0
    requires forall i | 0 <= i < |xs| :: ',' !in xs[i] && xs[i] != ""
    ensures Split(JoinWith(xs, ", "), ',') == [xs[0]] + Prefixed(xs[1..])
  {
    var ys := [xs[0]] + Prefixed(xs[1..]);
    CommaSpaceJoin(xs);
    PiecesHaveNoComma(xs);
    assert ys[|ys| - 1] != "";
    SplitOfJoin(ys, ',');
  }

  lemma PiecesHaveNoComma(xs: seq<string>)
    requires |xs| > 0
    requires forall i | 0 <= i < |xs| :: ',' !in xs[i]
    ensures var ys := [xs[0]] + Prefixed(xs[1..]); forall i | 0 <= i < |ys| :: ',' !in ys[i]
  {
    var ys := [xs[0]] + Prefixed(xs[1..]);
    forall i | 0 <= i < |ys| ensures ',' !in ys[i] {
      if i > 0 {
        assert ys[i] == " " + xs[i];
      }
    }
  }

  /** The text a non-blank first string starts is not blank. */
  lemma JoinNotBlank(xs: seq<string>, sep: string)
    requires |xs| > 0 && !IsBlank(xs[0])
    ensures !IsBlank(JoinWith(xs, sep))
  {
    var t := JoinWith(xs, sep);
    var k :| 0 <= k < |xs[0]| && !IsBlankChar(xs[0][k]);
    if |xs| > 1 {
      assert t == xs[0] + sep + JoinWith(xs[1..], sep);
    }
    assert t[k] == xs[0][k];
  }

  /** Stripping the pieces removes the spaces the join put in. */
  lemma StripAllOfPieces(xs: seq<string>)
    requires |xs| > 0
    requires forall i | 0 <= i < |xs| :: IsStripped(xs[i])
    ensures StripAll([xs[0]] + Prefixed(xs[1..])) == xs
  {
    var zs := StripAll([xs[0]] + Prefixed(xs[1..]));
    forall i | 0 <= i < |xs| ensures zs[i] == xs[i] {
      PieceStrips(xs, i);
    }
  }

  lemma PieceStrips(xs: seq<string>, i: nat)
    requires i < |xs| && IsStripped(xs[i])
    ensures Strip(([xs[0]] + Prefixed(xs[1..]))[i]) == xs[i]
  {
    if i == 0 {
      StripOfStripped(xs[0]);
    } else {
      assert ([xs[0]] + Prefixed(xs[1..]))[i] == " " + xs[i];
      StripOfSpaced(xs[i]);
    }
  }

  /** Splitting at commas and stripping undoes joining with ", ". */
  lemma SplitAndStripOfJoin(xs: seq<string>)
    requires |xs| > 0
    requires forall i | 0 <= i < |xs| :: ',' !in xs[i] && IsStripped(xs[i]) && xs[i] != ""
    ensures SplitAndStrip(JoinWith(xs, ", ")) == xs
  {
    SplitOfCommaSpaceJoin(xs);
    StripAllOfPieces(xs);
  }

  /** An array field shows its strings joined by ", "; submitted back, the
      text converts to the same array, provided no string is blank, holds a
      comma, or starts or ends with whitespace. */
  lemma ArrayRoundTrip(key: string, xs: seq<string>, defaults: seq<(Value, Value)>, rt: Runtime)
    requires OriginalValue(defaults, key).List?
    requires |xs| > 0
    requires forall i | 0 <= i < |xs| :: ',' !in xs[i] && IsStripped(xs[i]) && !IsBlank(xs[i])
    ensures var c := RenderSettingField(key, ArrayField, List(Strs(xs)), rt);
      && c.widget.content.Formatted?
      && ConvertValue(key, Str(c.widget.content.text), defaults, rt) == Success(List(Strs(xs)))
  {
    ArrayFieldShowsJoin(key, xs, rt);
    JoinedArrayConverts(key, xs, defaults, rt);
  }

  lemma ArrayFieldShowsJoin(key: string, xs: seq<string>, rt: Runtime)
    ensures RenderSettingField(key, ArrayField, List(Strs(xs)), rt).widget.content
         == Formatted(JoinWith(xs, ", "))
  {
    JoinOfStrings(xs, ", ", rt);
  }

  lemma JoinedArrayConverts(key: string, xs: seq<string>, defaults: seq<(Value, Value)>, rt: Runtime)
    requires OriginalValue(defaults, key).List?
    requires |xs| > 0
    requires forall i | 0 <= i < |xs| :: ',' !in xs[i] && IsStripped(xs[i]) && !IsBlank(xs[i])
    ensures ConvertValue(key, Str(JoinWith(xs, ", ")), defaults, rt) == Success(List(Strs(xs)))
  {
    JoinNotBlank(xs, ", ");
    SplitAndStripOfJoin(xs);
    TextConvertsToPieces(key, JoinWith(xs, ", "), defaults, rt);
  }

  lemma TextConvertsToPieces(key: string, s: string, defaults: seq<(Value, Value)>, rt: Runtime)
    requires OriginalValue(defaults, key).List?
    requires !IsBlank(s)
    ensures ConvertValue(key, Str(s), defaults, rt) == Success(List(Strs(SplitAndStrip(s))))
  {
  }

  /** An empty array shows as "", which converts to nil, not to `[]`. */
  lemma EmptyArrayBecomesNil(key: string, defaults: seq<(Value, Value)>, rt: Runtime)
    requires OriginalValue(defaults, key).List?
    ensures var c := RenderSettingField(key, ArrayField, List([]), rt);
      && c.widget.content == Formatted("")
      && ConvertValue(key, Str(c.widget.content.text), defaults, rt) == Success(Nil)
  {
  }

  /** The checkbox's value converts to `true` and its hidden field's value to
      `false`. */
  lemma CheckboxValuesRoundTrip(key: string, current: Value, defaults: seq<(Value, Value)>, rt: Runtime)
    requires OriginalValue(defaults, key).Bool?
    ensures var w := RenderSettingField(key, BooleanField, current, rt).widget;
      && ConvertValue(key, Str(w.value), defaults, rt) == Success(Bool(true))
      && ConvertValue(key, Str(w.hiddenValue), defaults, rt) == Success(Bool(false))
  {
    var w := RenderSettingField(key, BooleanField, current, rt).widget;
    assert !IsBlank(w.value) by {
      assert !IsBlankChar(w.value[0]);
    }
    assert !IsBlank(w.hiddenValue) by {
      assert !IsBlankChar(w.hiddenValue[0]);
    }
  }

  /** An integer field shows the integer; its text submitted back converts to
      the same integer. */
  lemma IntegerRoundTrip(key: string, n: int, defaults: seq<(Value, Value)>, rt: Runtime)
    requires OriginalValue(defaults, key).Int?
    ensures var w := RenderSettingField(key, IntegerField, Int(n), rt).widget;
      && w.prefill == Int(n)
      && ConvertValue(key, Str(ToS(w.prefill, rt)), defaults, rt) == Success(Int(n))
  {
    IntegerTextConverts(key, defaults, rt, n, OriginalValue(defaults, key).i);
  }

  /** A hash shown as JSON converts back to the same hash, for any JSON
      encoder whose output the parser reads back and is not blank. A hash
      with Symbol keys does not meet that condition: `JSON.parse` gives its
      keys back as Strings, so such a setting is saved with String keys. */
  lemma JsonRoundTrip(key: string, h: seq<(Value, Value)>, defaults: seq<(Value, Value)>, rt: Runtime)
    requires OriginalValue(defaults, key).Hash?
    requires rt.parseJson(rt.toJson(Hash(h))) == Some(Hash(h))
    requires !IsBlank(rt.toJson(Hash(h)))
    ensures var c := RenderSettingField(key, JsonField, Hash(h), rt);
      && c.widget.content == Formatted(rt.toJson(Hash(h)))
      && ConvertValue(key, Str(c.widget.content.text), defaults, rt) == Success(Hash(h))
  {
  }

  /** A JSON field whose current value is a string that is not JSON shows the
      string, which is saved back as that same string. The catalog never
      classifies a string current value as `json` (a string is truthy, so it
      decides the type and gets a text type), so this display arm is reached
      only when the field is rendered with `json` given directly. The saving
      half holds for any non-blank, non-JSON text typed into a JSON field;
      blank text is saved as `nil`. */
  lemma JsonTextRoundTrip(key: string, s: string, defaults: seq<(Value, Value)>, rt: Runtime)
    requires OriginalValue(defaults, key).Hash?
    requires rt.parseJson(s).None? && !IsBlank(s)
    ensures var c := RenderSettingField(key, JsonField, Str(s), rt);
      && c.widget.content == Formatted(s)
      && ConvertValue(key, Str(c.widget.content.text), defaults, rt) == Success(Str(s))
  {
  }
}

=== FILE: strings.dfy ===
/** The parts of Ruby's String and Integer behaviour the settings engine relies
    on: character classes, strip/lstrip, split on one character, join,
    substring search, ActiveSupport's humanize, String#to_i and Integer#to_s.
    Characters are Unicode scalar values, as in a UTF-8 Ruby string. */
module RubyStrings {
  import opened Wrappers

  // ---------------------------------------------------------------------------
  // Character classes
  // ---------------------------------------------------------------------------

  /** The ASCII whitespace Ruby's C core calls ISSPACE (skipped by String#to_i). */
  predicate IsAsciiSpace(c: char) {
    c == ' ' || c == '\t' || c == '\n' || c == '\U{000B}' || c == '\U{000C}' || c == '\r'
  }

  /** What String#strip and String#lstrip remove: ISSPACE characters and NUL. */
  predicate IsStripSpace(c: char) {
    c == '\0' || IsAsciiSpace(c)
  }

  /** The POSIX class [[:space:]] on a UTF-8 string (Unicode White_Space),
      which ActiveSupport's String#blank? tests every character against. */
  predicate IsBlankChar(c: char) {
    || IsAsciiSpace(c)
    || c == '\U{0085}' || c == '\U{00A0}' || c == '\U{1680}'
    || ('\U{2000}' <= c <= '\U{200A}')
    || c == '\U{2028}' || c == '\U{2029}' || c == '\U{202F}' || c == '\U{205F}'
    || c == '\U{3000}'
  }

  /** String#blank?: empty or only [[:space:]] characters. */
  predicate IsBlank(s: string) {
    forall i | 0 <= i < |s| :: IsBlankChar(s[i])
  }

  predicate IsDigit(c: char) {
    '0' <= c <= '9'
  }

  predicate IsAsciiUpper(c: char) {
    'A' <= c <= 'Z'
  }

  predicate IsAsciiLower(c: char) {
    'a' <= c <= 'z'
  }

  predicate IsAsciiLetter(c: char) {
    IsAsciiUpper(c) || IsAsciiLower(c)
  }

  /** Ruby's regexp class \w: ASCII letters, digits and underscore. */
  predicate IsWordChar(c: char) {
    IsAsciiLetter(c) || IsDigit(c) || c == '_'
  }

  /** String#downcase restricted to ASCII; every other character is kept. */
  function Downcase(c: char): (r: char)
    ensures !IsAsciiUpper(r)
    ensures IsAsciiLetter(c) <==> IsAsciiLetter(r)
    ensures !IsAsciiUpper(c) ==> r == c
  {
    if IsAsciiUpper(c) then (c as int + 32) as char else c
  }

  /** String#upcase restricted to ASCII; every other character is kept. */
  function Upcase(c: char): (r: char)
    ensures !IsAsciiLower(r)
    ensures IsAsciiLetter(c) <==> IsAsciiLetter(r)
    ensures !IsAsciiLower(c) ==> r == c
  {
    if IsAsciiLower(c) then (c as int - 32) as char else c
  }

  // ---------------------------------------------------------------------------
  // Prefixes, substrings, character search
  // ---------------------------------------------------------------------------

  predicate StartsWith(s: string, p: string) {
    |p| <= |s| && s[..|p|] == p
  }

  predicate EndsWith(s: string, p: string) {
    |p| <= |s| && s[|s| - |p|..] == p
  }

  /** `p` occurs in `s` starting at index `i`. */
  predicate OccursAt(s: string, p: string, i: int) {
    0 <= i && i + |p| <= |s| && s[i..i + |p|] == p
  }

  /** `p` occurs somewhere in `s` (what a regexp literal with no anchors and
      no metacharacters tests). */
  predicate Mentions(s: string, p: string) {
    exists i | 0 <= i <= |s| - |p| :: OccursAt(s, p, i)
  }

  /** A left-to-right substring search. */
  function Contains(s: string, p: string): (r: bool)
    ensures r <==> Mentions(s, p)
    decreases |s|
  {
    if StartsWith(s, p) then
      assert OccursAt(s, p, 0);
      true
    else if |s| == 0 then
      false
    else
      var r := Contains(s[1..], p);
      assert r ==> Mentions(s, p) by {
        if r {
          var i :| 0 <= i <= |s| - 1 - |p| && OccursAt(s[1..], p, i);
          assert s[i + 1..i + 1 + |p|] == s[1..][i..i + |p|];
          assert OccursAt(s, p, i + 1);
        }
      }
      assert Mentions(s, p) ==> r by {
        if Mentions(s, p) {
          var i :| 0 <= i <= |s| - |p| && OccursAt(s, p, i);
          assert i > 0;
          assert s[1..][i - 1..i - 1 + |p|] == s[i..i + |p|];
          assert OccursAt(s[1..], p, i - 1);
        }
      }
      r
  }

  /** Index of the first `c` in `s`. */
  function IndexOf(s: string, c: char): (r: Option<nat>)
    ensures r.None? <==> c !in s
    ensures r.Some? ==> r.value < |s| && s[r.value] == c && c !in s[..r.value]
    decreases |s|
  {
    if |s| == 0 then None
    else if s[0] == c then Some(0)
    else match IndexOf(s[1..], c)
      case None => None
      case Some(i) =>
        assert s[..i + 1] == [s[0]] + s[1..][..i];
        Some(i + 1)
  }

  /** Index of the last `c` in `s`. */
  function LastIndexOf(s: string, c: char): (r: Option<nat>)
    ensures r.None? <==> c !in s
    ensures r.Some? ==> r.value < |s| && s[r.value] == c && c !in s[r.value + 1..]
    decreases |s|
  {
    if |s| == 0 then None
    else if s[|s| - 1] == c then Some(|s| - 1)
    else match LastIndexOf(s[..|s| - 1], c)
      case None =>
        assert s == s[..|s| - 1] + [s[|s| - 1]];
        None
      case Some(i) =>
        assert s[i + 1..] == s[..|s| - 1][i + 1..] + [s[|s| - 1]];
        Some(i)
  }

  // ---------------------------------------------------------------------------
  // strip
  // ---------------------------------------------------------------------------

  /** String#lstrip. */
  function LStrip(s: string): (r: string)
    ensures |r| <= |s| && r == s[|s| - |r|..]
    ensures |r| > 0 ==> !IsStripSpace(r[0])
    decreases |s|
  {
    if |s| > 0 && IsStripSpace(s[0]) then LStrip(s[1..]) else s
  }

  /** String#rstrip. */
  function RStrip(s: string): (r: string)
    ensures |r| <= |s| && r == s[..|r|]
    ensures |r| > 0 ==> !IsStripSpace(r[|r| - 1])
    decreases |s|
  {
    if |s| > 0 && IsStripSpace(s[|s| - 1]) then RStrip(s[..|s| - 1]) else s
  }

  /** String#strip: leading and trailing whitespace and NUL removed. */
  function Strip(s: string): (r: string)
    ensures IsStripped(r)
    ensures |r| <= |s|
  {
    RStrip(LStrip(s))
  }

  /** Neither starts nor ends with a character String#strip removes. */
  predicate IsStripped(s: string) {
    |s| == 0 || (!IsStripSpace(s[0]) && !IsStripSpace(s[|s| - 1]))
  }

  lemma LStripOfStripped(s: string)
    requires |s| == 0 || !IsStripSpace(s[0])
    ensures LStrip(s) == s
  {
  }

  lemma RStripOfStripped(s: string)
    requires |s| == 0 || !IsStripSpace(s[|s| - 1])
    ensures RStrip(s) == s
  {
  }

  /** Stripping changes nothing on a stripped string. */
  lemma StripOfStripped(s: string)
    requires IsStripped(s)
    ensures Strip(s) == s
  {
    LStripOfStripped(s);
    RStripOfStripped(s);
  }

  /** Stripping a stripped string behind one space gives the string back. */
  lemma StripOfSpaced(s: string)
    requires IsStripped(s)
    ensures Strip(" " + s) == s
  {
    LStripOfSpaced(s);
    RStripOfStripped(s);
  }

  lemma LStripOfSpaced(s: string)
    requires |s| == 0 || !IsStripSpace(s[0])
    ensures LStrip(" " + s) == s
  {
    assert (" " + s)[1..] == s;
    LStripOfStripped(s);
  }

  /** Stripping adds no character. */
  lemma StripKeepsOut(s: string, c: char)
    requires c !in s
    ensures c !in Strip(s)
  {
    var l := LStrip(s);
    forall m | 0 <= m < |l| ensures l[m] != c {
      assert l[m] == s[|s| - |l| + m];
    }
    var r := RStrip(l);
    forall m | 0 <= m < |r| ensures r[m] != c {
      assert r[m] == l[m];
    }
  }

  // ---------------------------------------------------------------------------
  // split and join
  // ---------------------------------------------------------------------------

  /** Array#join of strings with separator `sep`. */
  function JoinWith(xs: seq<string>, sep: string): string
    decreases |xs|
  {
    if |xs| == 0 then ""
    else if |xs| == 1 then xs[0]
    else xs[0] + sep + JoinWith(xs[1..], sep)
  }

  /** Every field between occurrences of `c`, empty ones included: the unique
      list of `c`-free pieces that joined with `c` give `s` back (JoinOfFields
      and FieldsOfJoin). */
  function Fields(s: string, c: char): (r: seq<string>)
    ensures |r| > 0
    ensures forall i | 0 <= i < |r| :: c !in r[i]
    decreases |s|
  {
    match IndexOf(s, c)
    case None => [s]
    case Some(i) => [s[..i]] + Fields(s[i + 1..], c)
  }

  lemma {:induction false} JoinOfFields(s: string, c: char)
    ensures JoinWith(Fields(s, c), [c]) == s
    decreases |s|
  {
    match IndexOf(s, c)
    case None =>
    case Some(i) =>
      var rest := Fields(s[i + 1..], c);
      JoinOfFields(s[i + 1..], c);
      var r := [s[..i]] + rest;
      assert Fields(s, c) == r;
      assert r[1..] == rest;
      assert s == s[..i] + [c] + s[i + 1..];
  }

  /** The list without its trailing empty strings. */
  function DropTrailingEmpty(fs: seq<string>): (r: seq<string>)
    ensures |r| <= |fs| && r == fs[..|r|]
    ensures |r| > 0 ==> r[|r| - 1] != ""
    decreases |fs|
  {
    if |fs| > 0 && fs[|fs| - 1] == "" then DropTrailingEmpty(fs[..|fs| - 1]) else fs
  }

  /** What DropTrailingEmpty removes is empty. */
  lemma {:induction false} DroppedAreEmpty(fs: seq<string>)
    ensures forall i | |DropTrailingEmpty(fs)| <= i < |fs| :: fs[i] == ""
    decreases |fs|
  {
    if |fs| > 0 && fs[|fs| - 1] == "" {
      DroppedAreEmpty(fs[..|fs| - 1]);
    }
  }

  /** String#split with a one-character string pattern other than " ":
      the fields between occurrences of `c`, trailing empty fields removed. */
  function Split(s: string, c: char): (r: seq<string>)
    ensures forall i | 0 <= i < |r| :: c !in r[i]
    ensures |r| > 0 ==> r[|r| - 1] != ""
  {
    DropTrailingEmpty(Fields(s, c))
  }

  /** Split keeps a prefix of the fields, and every field it drops is empty:
      only trailing empty fields go. */
  lemma SplitDropsTrailingEmpty(s: string, c: char)
    ensures Split(s, c) == Fields(s, c)[..|Split(s, c)|]
    ensures forall i | |Split(s, c)| <= i < |Fields(s, c)| :: Fields(s, c)[i] == ""
  {
    DroppedAreEmpty(Fields(s, c));
  }

  /** IndexOf finds the first occurrence. */
  lemma IndexOfIs(s: string, c: char, i: nat)
    requires i < |s| && s[i] == c && c !in s[..i]
    ensures IndexOf(s, c) == Some(i)
  {
    var r := IndexOf(s, c);
    assert r.Some?;
    var k := r.value;
    forall m | 0 <= m < k ensures s[m] != c {
      assert s[..k][m] == s[m];
    }
    forall m | 0 <= m < i ensures s[m] != c {
      assert s[..i][m] == s[m];
    }
    assert k == i;
  }

  /** The fields of a text that starts with a `c`-free piece and `c`. */
  lemma FieldsAtFirst(s: string, c: char, a: string, rest: string)
    requires s == a + [c] + rest && c !in a
    ensures Fields(s, c) == [a] + Fields(rest, c)
  {
    assert s[..|a|] == a;
    IndexOfIs(s, c, |a|);
    assert s[|a| + 1..] == rest;
  }

  /** Splitting a join of `c`-free strings recovers them. */
  lemma {:induction false} FieldsOfJoin(xs: seq<string>, c: char)
    requires |xs| > 0
    requires forall i | 0 <= i < |xs| :: c !in xs[i]
    ensures Fields(JoinWith(xs, [c]), c) == xs
    decreases |xs|
  {
    if |xs| == 1 {
      assert JoinWith(xs, [c]) == xs[0];
    } else {
      var rest := JoinWith(xs[1..], [c]);
      assert JoinWith(xs, [c]) == xs[0] + [c] + rest;
      FieldsAtFirst(JoinWith(xs, [c]), c, xs[0], rest);
      FieldsOfJoin(xs[1..], c);
      assert xs == [xs[0]] + xs[1..];
    }
  }

  /** Splitting a join of `c`-free strings, the last of them non-empty,
      recovers them. */
  lemma SplitOfJoin(xs: seq<string>, c: char)
    requires |xs| > 0 && xs[|xs| - 1] != ""
    requires forall i | 0 <= i < |xs| :: c !in xs[i]
    ensures Split(JoinWith(xs, [c]), c) == xs
  {
    FieldsOfJoin(xs, c);
  }

  // ---------------------------------------------------------------------------
  // ActiveSupport humanize
  // ---------------------------------------------------------------------------

  /** Every `a` in `s` replaced by `b` (String#tr with one character each). */
  function Tr(s: string, a: char, b: char): (r: string)
    ensures |r| == |s|
    ensures forall i | 0 <= i < |s| :: r[i] == (if s[i] == a then b else s[i])
  {
    seq(|s|, i requires 0 <= i < |s| => if s[i] == a then b else s[i])
  }

  /** Every ASCII capital replaced by its lower-case letter. */
  function DowncaseAll(s: string): (r: string)
    ensures |r| == |s|
    ensures forall i | 0 <= i < |s| :: r[i] == Downcase(s[i])
  {
    seq(|s|, i requires 0 <= i < |s| => Downcase(s[i]))
  }

  /** `sub(/\A\w/) { upcase }`: the first character upcased when it is a
      word character. */
  function CapitalizeFirst(s: string): (r: string)
    ensures |r| == |s|
    ensures |s| > 0 ==> r[0] == Upcase(s[0])
    ensures forall i | 0 < i < |s| :: r[i] == s[i]
  {
    if |s| > 0 && IsWordChar(s[0]) then [Upcase(s[0])] + s[1..] else s
  }

  /** The text humanize works on once underscores are spaces, leading
      whitespace is gone and a trailing " id" is dropped from a key ending in
      "_id". */
  function HumanizeText(w: string): (r: string)
    ensures |r| <= |w|
    ensures '_' !in r
    ensures |r| > 0 ==> !IsStripSpace(r[0])
  {
    var spaced := LStrip(Tr(w, '_', ' '));
    SpacedHasNoUnderscore(w);
    if EndsWith(w, "_id") && EndsWith(spaced, " id") then
      PrefixKeepsShape(spaced, |spaced| - 3);
      spaced[..|spaced| - 3]
    else spaced
  }

  lemma SpacedHasNoUnderscore(w: string)
    ensures '_' !in LStrip(Tr(w, '_', ' '))
  {
    var t := Tr(w, '_', ' ');
    var s := LStrip(t);
    forall i | 0 <= i < |s| ensures s[i] != '_' {
      assert s[i] == t[|t| - |s| + i];
    }
  }

  lemma PrefixKeepsShape(s: string, n: nat)
    requires n <= |s|
    requires '_' !in s && (|s| > 0 ==> !IsStripSpace(s[0]))
    ensures '_' !in s[..n] && (n > 0 ==> !IsStripSpace(s[..n][0]))
  {
    forall i | 0 <= i < n ensures s[..n][i] != '_' {
      assert s[..n][i] == s[i];
    }
  }

  /** ActiveSupport's String#humanize with no inflection rules configured:
      underscores become spaces, leading whitespace goes, a trailing "_id"
      is dropped, ASCII letters are lowered and the first one is capitalised
      (HumanizeShape). */
  function Humanize(w: string): (r: string)
    ensures |r| <= |w|
  {
    CapitalizeFirst(DowncaseAll(HumanizeText(w)))
  }

  /** A humanized key has no underscore, does not start with whitespace, and
      has no capital letter after its first character. */
  lemma HumanizeShape(w: string)
    ensures '_' !in Humanize(w)
    ensures |Humanize(w)| > 0 ==> !IsStripSpace(Humanize(w)[0])
    ensures forall i | 0 < i < |Humanize(w)| :: !IsAsciiUpper(Humanize(w)[i])
  {
    CasedShape(HumanizeText(w));
  }

  /** Lowering and capitalising the first character keeps a text free of
      underscores and leading whitespace, and leaves no capital after the
      first character. */
  lemma CasedShape(t: string)
    requires '_' !in t && (|t| > 0 ==> !IsStripSpace(t[0]))
    ensures var r := CapitalizeFirst(DowncaseAll(t));
      && '_' !in r
      && (|r| > 0 ==> !IsStripSpace(r[0]))
      && forall i | 0 < i < |r| :: !IsAsciiUpper(r[i])
  {
    var d := DowncaseAll(t);
    var r := CapitalizeFirst(d);
    forall i | 0 <= i < |r| ensures r[i] != '_' && (i == 0 ==> !IsStripSpace(r[i])) && (i > 0 ==> !IsAsciiUpper(r[i])) {
      assert t[i] in t;
      assert d[i] == Downcase(t[i]);
      if i == 0 {
        assert r[0] == Upcase(d[0]);
      } else {
        assert r[i] == d[i];
      }
    }
  }

  // ---------------------------------------------------------------------------
  // Integer#to_s and String#to_i
  // ---------------------------------------------------------------------------

  function DigitChar(d: nat): (c: char)
    requires d < 10
    ensures IsDigit(c)
  {
    ('0' as int + d) as char
  }

  function DigitValue(c: char): (d: nat)
    requires IsDigit(c)
    ensures d < 10 && DigitChar(d) == c
  {
    c as int - '0' as int
  }

  predicate AllDigits(s: string) {
    forall i | 0 <= i < |s| :: IsDigit(s[i])
  }

  /** The decimal numeral of a natural number, most significant digit first. */
  function NatToS(n: nat): (r: string)
    ensures |r| > 0 && AllDigits(r)
    ensures r[0] == '0' ==> n == 0 && |r| == 1
  {
    if n < 10 then [DigitChar(n)] else NatToS(n / 10) + [DigitChar(n % 10)]
  }

  /** Integer#to_s. */
  function IntToS(n: int): (r: string)
    ensures |r| > 0
  {
    if n < 0 then "-" + NatToS(-n) else NatToS(n)
  }

  /** The value of a decimal numeral. */
  function DigitsValue(ds: string): nat
    requires AllDigits(ds)
    decreases |ds|
  {
    if |ds| == 0 then 0 else DigitsValue(ds[..|ds| - 1]) * 10 + DigitValue(ds[|ds| - 1])
  }

  /** The digits of the longest prefix of `w` of the form d(_?d)*: String#to_i
      lets a single underscore separate two digits and stops at anything else. */
  function DigitRun(w: string): (r: string)
    ensures AllDigits(r)
    ensures |r| <= |w|
    ensures |r| > 0 <==> |w| > 0 && IsDigit(w[0])
    decreases |w|
  {
    if |w| == 0 || !IsDigit(w[0]) then ""
    else if |w| >= 3 && w[1] == '_' && IsDigit(w[2]) then [w[0]] + DigitRun(w[2..])
    else [w[0]] + DigitRun(w[1..])
  }

  /** `s` with its leading ISSPACE characters removed. */
  function SkipSpace(s: string): (r: string)
    ensures |r| <= |s| && r == s[|s| - |r|..]
    ensures |r| > 0 ==> !IsAsciiSpace(r[0])
    decreases |s|
  {
    if |s| > 0 && IsAsciiSpace(s[0]) then SkipSpace(s[1..]) else s
  }

  /** The magnitude String#to_i reads after the sign: an optional "0d" radix
      prefix, then the digit run; 0 when there are no digits. */
  function Magnitude(u: string): nat {
    var w := if |u| >= 2 && u[0] == '0' && (u[1] == 'd' || u[1] == 'D') then u[2..] else u;
    DigitsValue(DigitRun(w))
  }

  /** String#to_i in base 10: leading ISSPACE skipped, then an optional sign
      and the magnitude. It never fails. */
  function ToI(s: string): int {
    var t := SkipSpace(s);
    if |t| > 0 && t[0] == '-' then -(Magnitude(t[1..]) as int)
    else if |t| > 0 && t[0] == '+' then Magnitude(t[1..])
    else Magnitude(t)
  }

  lemma {:induction false} DigitRunOfDigits(w: string)
    requires AllDigits(w)
    ensures DigitRun(w) == w
    decreases |w|
  {
    if |w| > 0 {
      DigitRunOfDigits(w[1..]);
      assert w == [w[0]] + w[1..];
    }
  }

  lemma {:induction false} ValueOfNatToS(n: nat)
    ensures DigitsValue(NatToS(n)) == n
    decreases n
  {
    if n >= 10 {
      var ds := NatToS(n);
      assert ds[..|ds| - 1] == NatToS(n / 10);
      ValueOfNatToS(n / 10);
    }
  }

  lemma MagnitudeOfNatToS(m: nat)
    ensures Magnitude(NatToS(m)) == m
  {
    DigitRunOfDigits(NatToS(m));
    ValueOfNatToS(m);
  }

  lemma ToIOfUnsigned(s: string)
    requires |s| > 0 && IsDigit(s[0])
    ensures ToI(s) == Magnitude(s)
  {
    assert SkipSpace(s) == s;
  }

  lemma ToIOfMinus(s: string, m: nat)
    requires |s| > 0 && IsDigit(s[0]) && Magnitude(s) == m
    ensures ToI("-" + s) == -(m as int)
  {
    var t := "-" + s;
    assert SkipSpace(t) == t;
    assert t[1..] == s;
  }

  lemma ToIOfNonNegative(n: int)
    requires n >= 0
    ensures ToI(IntToS(n)) == n
  {
    var s := NatToS(n);
    assert IntToS(n) == s;
    ToIOfUnsigned(s);
    MagnitudeOfNatToS(n);
  }

  lemma ToIOfNegative(n: int)
    requires n < 0
    ensures ToI(IntToS(n)) == n
  {
    MagnitudeOfNatToS(-n);
    ToIOfMinus(NatToS(-n), -n);
  }

  /** Reading back what Integer#to_s printed gives the integer back:
      `n.to_s.to_i == n`. */
  lemma IntRoundTrip(n: int)
    ensures ToI(IntToS(n)) == n
  {
    if n < 0 {
      ToIOfNegative(n);
    } else {
      ToIOfNonNegative(n);
    }
  }
}

=== FILE: update.dfy ===
/** The update step of the settings action (`update_settings`): every
    submitted `key => value` pair, in order, is converted against the
    defaults the `Setting` class exposes and written to the store with the setting's writer. The store is
    a map from setting name to value whose keys are the settings the `Setting`
    class declares; writing any other name raises. An exception ends the step,
    and the writes made before it stay. */
module Update {
  import opened Wrappers
  import opened RubyValues
  import opened Converter

  /** What ends an update early. */
  datatype UpdateError =
    | Conversion(key: string, error: ConvertError)  // convert_value raised
    | UnknownSetting(key: string)                   // NoMethodError: no writer `key=`

  /** The store after the step, and the exception that stopped it, if any. */
  datatype Outcome = Outcome(store: map<string, Value>, error: Option<UpdateError>)

  /** The pairs converted by `convert` and written one by one; the first
      failed conversion or unknown name ends the run. */
  function Apply(submitted: seq<(string, Value)>, convert: (string, Value) -> Result<Value, ConvertError>,
                 store: map<string, Value>): (o: Outcome)
    ensures o.store.Keys == store.Keys
    ensures o.error.None? <==> forall i | 0 <= i < |submitted| ::
      submitted[i].0 in store && convert(submitted[i].0, submitted[i].1).Success?
    decreases |submitted|
  {
    if |submitted| == 0 then Outcome(store, None)
    else
      var (key, value) := submitted[0];
      match convert(key, value)
      case Failure(e) => Outcome(store, Some(Conversion(key, e)))
      case Success(v) =>
        if key !in store then Outcome(store, Some(UnknownSetting(key)))
        else
          var o := Apply(submitted[1..], convert, store[key := v]);
          assert forall i | 1 <= i < |submitted| :: submitted[i] == submitted[1..][i - 1];
          o
  }

  /** A setting no pair names keeps its value, whether or not the run stops
      early. */
  lemma {:induction false} ApplyKeepsUnnamed(submitted: seq<(string, Value)>,
                                             convert: (string, Value) -> Result<Value, ConvertError>,
                                             store: map<string, Value>, k: string)
    requires k in store
    requires forall i | 0 <= i < |submitted| :: submitted[i].0 != k
    ensures Apply(submitted, convert, store).store[k] == store[k]
    decreases |submitted|
  {
    if |submitted| > 0 {
      var (key, value) := submitted[0];
      if convert(key, value).Success? && key in store {
        assert forall i | 0 <= i < |submitted[1..]| :: submitted[1..][i] == submitted[i + 1];
        ApplyKeepsUnnamed(submitted[1..], convert, store[key := convert(key, value).value], k);
      }
    }
  }

  /** After a run that does not stop early, each named setting holds the
      converted value of the last pair naming it. */
  lemma {:induction false} ApplyLastWriteWins(submitted: seq<(string, Value)>,
                                              convert: (string, Value) -> Result<Value, ConvertError>,
                                              store: map<string, Value>, i: nat)
    requires Apply(submitted, convert, store).error.None?
    requires i < |submitted|
    requires forall j | i < j < |submitted| :: submitted[j].0 != submitted[i].0
    ensures Apply(submitted, convert, store).store[submitted[i].0]
         == convert(submitted[i].0, submitted[i].1).value
    decreases |submitted|
  {
    var (key, value) := submitted[0];
    var rest := submitted[1..];
    var next := store[key := convert(key, value).value];
    assert Apply(submitted, convert, store) == Apply(rest, convert, next);
    if i == 0 {
      assert forall j | 0 <= j < |rest| :: rest[j] == submitted[j + 1];
      ApplyKeepsUnnamed(rest, convert, next, key);
    } else {
      assert rest[i - 1] == submitted[i];
      assert forall j | i - 1 < j < |rest| :: rest[j] == submitted[j + 1];
      ApplyLastWriteWins(rest, convert, next, i - 1);
    }
  }

  /** `update_settings`: nothing happens without a `Setting` class or without
      a `settings` parameter; otherwise each pair goes through
      `convert_value` against the defaults the class exposes. */
  function UpdateSettings(defined: bool, submitted: Option<seq<(string, Value)>>,
                          src: DefaultsSource, store: map<string, Value>, rt: Runtime)
    : (o: Outcome)
    ensures !defined || submitted.None? ==> o == Outcome(store, None)
    ensures o.store.Keys == store.Keys
  {
    if defined && submitted.Some? then
      Apply(submitted.value, (k, v) => ConvertSubmitted(k, v, src, rt), store)
    else Outcome(store, None)
  }

  /** A form submits strings: with Hash-shaped defaults, an update that names
      only declared settings never stops early, and each setting ends up
      holding its last submitted value, converted. */
  lemma StringSubmissionsSucceed(submitted: seq<(string, Value)>, src: DefaultsSource,
                                 store: map<string, Value>, rt: Runtime)
    requires ConverterDefaults(src).Hash?
    requires forall i | 0 <= i < |submitted| :: submitted[i].1.Str? && submitted[i].0 in store
    ensures var o := UpdateSettings(true, Some(submitted), src, store, rt);
      && o.error.None?
      && forall i | 0 <= i < |submitted| && (forall j | i < j < |submitted| :: submitted[j].0 != submitted[i].0) ::
           o.store[submitted[i].0] == ConvertSubmitted(submitted[i].0, submitted[i].1, src, rt).value
  {
    var convert := (k, v) => ConvertSubmitted(k, v, src, rt);
    assert forall i | 0 <= i < |submitted| :: convert(submitted[i].0, submitted[i].1).Success?;
    forall i | 0 <= i < |submitted| && (forall j | i < j < |submitted| :: submitted[j].0 != submitted[i].0)
      ensures Apply(submitted, convert, store).store[submitted[i].0]
           == ConvertSubmitted(submitted[i].0, submitted[i].1, src, rt).value
    {
      ApplyLastWriteWins(submitted, convert, store, i);
    }
  }

  /** With Array-shaped defaults the first non-blank submission raises in
      `convert_value`: the update stops there and the store is unchanged. */
  lemma ArrayDefaultsStopUpdate(key: string, value: Value, rest: seq<(string, Value)>, src: DefaultsSource,
                                store: map<string, Value>, rt: Runtime)
    requires ConverterDefaults(src).List? && !IsBlankValue(value)
    ensures UpdateSettings(true, Some([(key, value)] + rest), src, store, rt)
         == Outcome(store, Some(Conversion(key, NotAnIndex)))
  {
    ArrayDefaultsRaise(key, value, src, rt);
  }

  /** A setting the submission does not name keeps its value, whether or not
      the update stops early. */
  lemma UnrelatedKeysUnchanged(submitted: seq<(string, Value)>, src: DefaultsSource,
                               store: map<string, Value>, rt: Runtime, k: string)
    requires k in store
    requires forall i | 0 <= i < |submitted| :: submitted[i].0 != k
    ensures UpdateSettings(true, Some(submitted), src, store, rt).store[k] == store[k]
  {
    ApplyKeepsUnnamed(submitted, (k, v) => ConvertSubmitted(k, v, src, rt), store, k);
  }
}

=== FILE: values.dfy ===
/** The Ruby values a setting can hold, as a closed tagged union, with the
    core-library behaviour the settings engine applies to them: truthiness,
    blank?, Hash#[], to_s and Array#join. Library routines whose internals are
    not modelled (float parsing and printing, inspect, JSON) are supplied as a
    `Runtime` record. */
module RubyValues {
  import opened Wrappers
  import opened RubyStrings

  /** A Ruby value. A Float carries its IEEE-754 binary64 bits and is otherwise
      opaque; a Hash is its entry list in insertion order. */
  datatype Value =
    | Nil
    | Bool(b: bool)
    | Int(i: int)
    | Float(bits: bv64)
    | Str(s: string)
    | Sym(name: string)
    | List(items: seq<Value>)
    | Hash(entries: seq<(Value, Value)>)

  /** Library routines the engine calls but whose internals are not modelled. */
  datatype Runtime = Runtime(
    stringToF: string -> bv64,          // String#to_f
    floatToI: bv64 -> Option<int>,      // Float#to_i; None when it raises FloatDomainError
    intToF: int -> bv64,                // Integer#to_f
    floatToS: bv64 -> string,           // Float#to_s
    inspect: Value -> string,           // Array#to_s and Hash#to_s
    parseJson: string -> Option<Value>, // JSON.parse; None when it raises JSON::ParserError
    toJson: Value -> string             // Object#to_json
  )

  /** Ruby truthiness: everything except nil and false. */
  predicate Truthy(v: Value) {
    !(v.Nil? || v == Bool(false))
  }

  /** Ruby's `a || b`. */
  function Or(a: Value, b: Value): Value {
    if Truthy(a) then a else b
  }

  /** Object#blank? as ActiveSupport defines it for each kind of value. */
  predicate IsBlankValue(v: Value) {
    match v
    case Nil => true
    case Bool(b) => !b
    case Int(_) => false
    case Float(_) => false
    case Str(s) => IsBlank(s)
    case Sym(n) => |n| == 0
    case List(items) => |items| == 0
    case Hash(entries) => |entries| == 0
  }

  /** Hash#[]: the value stored under `k`, or nil when there is none. */
  function HashGet(entries: seq<(Value, Value)>, k: Value): (r: Value)
    ensures (forall i | 0 <= i < |entries| :: entries[i].0 != k) ==> r == Nil
    ensures r != Nil ==> exists i | 0 <= i < |entries| :: entries[i] == (k, r)
    decreases |entries|
  {
    if |entries| == 0 then Nil
    else if entries[0].0 == k then entries[0].1
    else
      var r := HashGet(entries[1..], k);
      assert r != Nil ==> exists i | 0 <= i < |entries| :: entries[i] == (k, r) by {
        if r != Nil {
          var i :| 0 <= i < |entries[1..]| && entries[1..][i] == (k, r);
          assert entries[i + 1] == (k, r);
        }
      }
      r
  }

  /** Hash#keys.first. */
  function FirstKey(entries: seq<(Value, Value)>): Value {
    if |entries| == 0 then Nil else entries[0].0
  }

  /** Hash#values.first. */
  function FirstValue(entries: seq<(Value, Value)>): Value {
    if |entries| == 0 then Nil else entries[0].1
  }

  /** The method name a String or Symbol stands for (its `to_s`, and what
      `to_sym` and `public_send` accept); None for every other kind. */
  function KeyName(v: Value): (r: Option<string>)
    ensures r.Some? <==> v.Str? || v.Sym?
  {
    match v
    case Str(s) => Some(s)
    case Sym(n) => Some(n)
    case _ => None
  }

  /** Object#to_s. */
  function ToS(v: Value, rt: Runtime): string {
    match v
    case Nil => ""
    case Bool(b) => if b then "true" else "false"
    case Int(n) => IntToS(n)
    case Float(f) => rt.floatToS(f)
    case Str(s) => s
    case Sym(n) => n
    case List(_) => rt.inspect(v)
    case Hash(_) => rt.inspect(v)
  }

  /** Array#join(sep): elements converted with to_s, nested arrays joined
      recursively with the same separator. */
  function Join(v: Value, sep: string, rt: Runtime): string
    requires v.List?
    decreases v, 1
  {
    JoinFrom(v, 0, sep, rt)
  }

  function JoinFrom(v: Value, i: nat, sep: string, rt: Runtime): string
    requires v.List? && i <= |v.items|
    decreases v, 0, |v.items| - i
  {
    if i == |v.items| then ""
    else (if i == 0 then "" else sep) + JoinElement(v.items[i], sep, rt) + JoinFrom(v, i + 1, sep, rt)
  }

  function JoinElement(x: Value, sep: string, rt: Runtime): string
    decreases x, 2
  {
    if x.List? then Join(x, sep, rt) else ToS(x, rt)
  }

  /** The Ruby array of the given strings. */
  function Strs(xs: seq<string>): (r: seq<Value>)
    ensures |r| == |xs|
    ensures forall i | 0 <= i < |xs| :: r[i] == Str(xs[i])
  {
    seq(|xs|, i requires 0 <= i < |xs| => Str(xs[i]))
  }

  lemma {:induction false} JoinFromOfStrings(xs: seq<string>, i: nat, sep: string, rt: Runtime)
    requires 0 < i <= |xs|
    ensures JoinFrom(List(Strs(xs)), i, sep, rt)
            == if i == |xs| then "" else sep + JoinWith(xs[i..], sep)
    decreases |xs| - i
  {
    if i < |xs| {
      var v := List(Strs(xs));
      var rest := JoinFrom(v, i + 1, sep, rt);
      assert v.items[i] == Str(xs[i]);
      assert JoinFrom(v, i, sep, rt) == sep + xs[i] + rest;
      JoinFromOfStrings(xs, i + 1, sep, rt);
      if i + 1 < |xs| {
        assert xs[i..][1..] == xs[i + 1..];
        assert JoinWith(xs[i..], sep) == xs[i] + sep + JoinWith(xs[i + 1..], sep);
      } else {
        assert JoinWith(xs[i..], sep) == xs[i];
      }
    }
  }

  /** Joining an array of strings is joining the strings themselves. */
  lemma JoinOfStrings(xs: seq<string>, sep: string, rt: Runtime)
    ensures Join(List(Strs(xs)), sep, rt) == JoinWith(xs, sep)
  {
    if |xs| > 0 {
      var v := List(Strs(xs));
      var rest := JoinFrom(v, 1, sep, rt);
      assert v.items[0] == Str(xs[0]);
      assert JoinFrom(v, 0, sep, rt) == "" + JoinElement(v.items[0], sep, rt) + rest;
      assert "" + xs[0] + rest == xs[0] + rest;
      JoinFromOfStrings(xs, 1, sep, rt);
    }
  }
}

=== FILE: wrappers.dfy ===
/** Optional values and results that carry either a value or the error a Ruby
    method would have raised. Both are failure-compatible, so `:-` works. */
module Wrappers {

  datatype Option<+T> = None | Some(value: T) {

    predicate IsFailure() {
      None?
    }

    function PropagateFailure<U>(): Option<U>
      requires None?
    {
      None
    }

    function Extract(): T
      requires Some?
    {
      value
    }

    /** The carried value, or `default` when there is none. */
    function GetOr(default: T): T {
      match this
      case Some(v) => v
      case None => default
    }
  }

  datatype Result<+T, +E> = Success(value: T) | Failure(error: E) {

    predicate IsFailure() {
      Failure?
    }

    function PropagateFailure<U>(): Result<U, E>
      requires Failure?
    {
      Failure(error)
    }

    function Extract(): T
      requires Success?
    {
      value
    }
  }
}
